=== FILE: README.md ===
# Spell damage calculator — a Dafny model

This project models the pure core of a browser damage calculator for a
four-class online RPG:

- the spell table: each spell's damage formula over the caster's stats
  (vita, mana, dam, will, grace, level tier) and, for one spell, the target's
  stats, returning a floored number or one of three fixed-shape breakdowns;
- the buff and debuff tables and the two aggregators that fold a selection
  of effect keys into one multiplier/bonus record;
- the class table and the list of spells a class has unlocked at a level tier;
- the damage calculator object: damage of one spell, the list of unlocked
  spells with their damage, and field-overwriting updates of the character
  and the target.

Modules, one file each:

| file | module | models |
|---|---|---|
| wrappers.dfy | Wrappers | `Option` for table lookups |
| tiers.dfy | Tiers | `LEVEL_TIERS` and `indexOf` on it |
| stats.dfy | Stats | character and target records |
| spells.dfy | Spells | the `SPELLS` table |
| folds.dfy | Folds | left folds, i.e. `forEach` over an accumulator, and filtering |
| effects.dfy | Effects | `BUFFS`, `DEBUFFS`, `calculateBuffEffects`, `calculateDebuffEffects` |
| classes.dfy | Classes | `CLASSES.spellsByLevel`, `getSpellsForLevel` |
| calculator.dfy | Calculator | `DamageCalculator` |

Modelling decisions:

- **Numbers.** Formulas are written over exact rationals (`real`), and
  `Math.floor` is `.Floor`, which rounds toward minus infinity as
  `Math.floor` does. A floor sits at every point where the source floors.
  Nothing else is rounded, and this includes the aggregators' multiplier
  products (see "## Left out").
  - `Math.floor` rounds toward minus infinity; truncation toward zero would
    differ only for negative stats.
  - Every formula also has an integer-only restatement
    (`Spells.IntegerFormula`), and `Spells.FormulaIsExact` proves the two
    agree on every input.
- **Tables.** The source's string-keyed tables are an enumeration datatype
  per table, a key function, and a lookup from string to `Option`. Each
  lookup is proved to be the inverse of its key function.
- **Absent fields.** JavaScript's `if (entry.field)` test treats an absent
  numeric field and 0 alike. The model stores absent fields as 0 (or 0.0)
  and tests `!= 0`.
- **Debuff variants.** Only the entry stored under `sleep_dart` is checked
  for PvP/boss multipliers.
- **Level tiers.** A level is a string. `Tiers.TierIndex` is `indexOf` on the
  five tier names, which is -1 for any other string.

## Model

| member | source | states |
|---|---|---|
| Tiers.TierAt | js/data/classes.js:46 | the tier at position i is the one whose name `LEVEL_TIERS` holds at i |
| Tiers.IndexOf | js/data/classes.js:54 | `indexOf`: -1 exactly when absent, otherwise the first position holding the value |
| Tiers.TierIndex | js/data/classes.js:54 | a level's tier index is -1 exactly for strings that are not tier names, otherwise the position of the first match |
| Tiers.LevelTiersDistinct | js/data/classes.js:46 | the five tier names are pairwise distinct |
| Tiers.TierIndexOfName | js/data/classes.js:46 | `indexOf(LEVEL_TIERS[i]) == i`, so `indexOf` is injective on the tiers |
| Tiers.TierNameIndexed | js/data/classes.js:46 | every tier's name is found, at the position of that tier |
| Spells.Formula | js/data/spells.js:5-312 | hellfire alone returns the over-time breakdown, pillar of flames alone the multi-target one, doom's fire alone the two-hit one; every other spell returns a number |
| Spells.FormulaIsExact | js/data/spells.js:5-312 | every floored rational formula equals its integer-division restatement on every input |
| Spells.WarriorFormulasExact | js/data/spells.js:8-70 | warrior formulas: `floor(0.25*vita+500) == (vita+2000) div 4`, and so on for the other seven |
| Spells.RogueFormulasExact | js/data/spells.js:75-138 | rogue formulas equal their integer restatements, bladestorm's grace scaling included |
| Spells.BladestormExact | js/data/spells.js:102-106 | `floor((2.5*vita + 9.15*mana*0.8) * (grace/100)) == (250*vita + 732*mana)*grace div 10000` |
| Spells.MageFormulasExact | js/data/spells.js:143-258 | mage formulas equal their integer restatements |
| Spells.MageSingleHitFormulasExact | js/data/spells.js:143-258 | blizzard, phoenix, poison cloud, inferno, fire breath and twister equal their integer restatements |
| Spells.BlizzardFormulaExact | js/data/spells.js:146-163 | blizzard's table entry equals its integer restatement |
| Spells.BlizzardExact | js/data/spells.js:149-162 | on each level-string branch, `floor(base + rate*mana)` equals `base + num*mana div den`: 19/100 at 'Sam San', 7/40 at 'Ee San', 3/20 at 'Il San', 1/10 otherwise |
| Spells.OffsetFloor | js/data/spells.js:151-162 | an integer base plus `num/den` of mana, floored, is the base plus `num*mana div den` |
| Spells.PoisonCloudExact | js/data/spells.js:177-179 | `floor(0.125*mana*(will/100)) == mana*will div 800` |
| Spells.MageMultiHitFormulasExact | js/data/spells.js:182-243 | hellfire, pillar of flames, volcano and doom's fire equal their integer restatements |
| Spells.PillarOfFlamesFormulaExact | js/data/spells.js:202-209 | the per-hit damage is `5*mana div 8` and the total is eight times it |
| Spells.HellfireFormulaExact | js/data/spells.js:185-196 | hellfire's table entry equals its integer restatement |
| Spells.HellfireExact | js/data/spells.js:186-195 | `floor((4+0.04*dam)*mana) == (100+dam)*mana div 25`, and the tick is that div 4 |
| Spells.VolcanoFormulaExact | js/data/spells.js:215-219 | volcano's table entry equals its integer restatement |
| Spells.VolcanoExact | js/data/spells.js:216-218 | the first hit is `13*(10+dam)*mana div 80`, and the second is half of it, floored |
| Spells.DoomsFireFormulaExact | js/data/spells.js:233-242 | doom's fire's table entry equals its integer restatement |
| Spells.DoomsFireExact | js/data/spells.js:234-241 | the first hit is `2*(100+dam)*mana div 25`, and the second is half of it, floored |
| Spells.DamScaledManaFloor | js/data/spells.js:186-234 | `floor((base + rate*dam) * mana)` equals `scale*(offset+dam)*mana div den` whenever base and rate are `scale*offset/den` and `scale/den` |
| Spells.PercentFloor | js/data/spells.js:105-178 | a stat percentage of `p/den`, floored, is `p*pct div (100*den)` |
| Spells.QuarterFloor | js/data/spells.js:187 | `floor(0.25*n) == n div 4` for every integer n, negative ones included |
| Spells.HalfFloor | js/data/spells.js:217-235 | `floor(n*0.5) == n div 2` for every integer n |
| Spells.PoetFormulasExact | js/data/spells.js:263-310 | retribution's nested floors equal `i + 3*i div 2` with `i = 17*mana div 50`; the unknown poet spells are 0 |
| Spells.RetributionExact | js/data/spells.js:267-269 | the initial hit is `17*mana div 50` and the six quarter-ticks `3*i div 2` of it |
| Spells.FloorOfQuotient | js/data/spells.js:12 | flooring n/d with d > 0 is Euclidean integer division |
| Spells.BlizzardTierDispatch | js/data/spells.js:150-155 | the level is 'Sam San', 'Ee San' or 'Il San' exactly when its tier index is 4, 3 or 2 |
| Spells.BreakdownsConsistent | js/data/spells.js:186-241 | hellfire's tick is a quarter of its initial hit, floored, over ten ticks, and the grand total is their sum; pillar of flames hits 8 times; doom's fire's second hit is half its first, floored, and its total is their sum |
| Spells.DoomsFireSecondHitSmaller | js/data/spells.js:234-241 | with non-negative stats, 0 <= secondHit <= firstHit and the total is at most twice the first hit |
| Spells.VolcanoIsScalar | js/data/spells.js:215-219 | volcano returns the plain number `f + f div 2`, `f` its floored first hit |
| Spells.RetributionIsScalar | js/data/spells.js:266-270 | retribution returns the plain number `i + 3*i div 2`, `i` its floored initial hit |
| Spells.ZeroExactlyWhenUnknown | js/data/spells.js:128-310 | a spell yields 0 on every input if and only if it is one of the six unknown formulas |
| Spells.KnownFormulaDealsDamage | js/data/spells.js:8-270 | at the sample caster (vita and mana 1000, dam, hit and might 10, will and grace 100) and the sample target, every formula that is not unknown deals non-zero damage; it is the witness for `Spells.ZeroExactlyWhenUnknown`, not a threshold for all casters |
| Spells.IgniteDealsFifty | js/data/spells.js:136-138 | ignite deals 50 whatever the stats |
| Spells.BlizzardByTier | js/data/spells.js:150-162 | blizzard's constant by tier index: 20099, 16099, 12099, and 8990 for '99', 'Below 99' and unknown levels |
| Spells.IntegerBlizzardByTier | js/data/spells.js:150-162 | the integer restatement of blizzard, branch by branch, as a dispatch on the tier index |
| Spells.LevelDispatch | js/data/spells.js:150-155 | branching on 'Sam San', 'Ee San' and 'Il San' in turn is branching on tier index 4, 3 and 2 |
| Spells.OnlyBombBarrageReadsTarget | js/data/spells.js:121 | a formula ignores the target if and only if it is not bomb barrage |
| Spells.NonNegativeDamage | js/data/spells.js:5-312 | with non-negative stats no formula yields a negative number in any field |
| Spells.IntegerFormulaNonNegative | js/data/spells.js:5-312 | the integer restatements are non-negative on non-negative stats |
| Spells.DamScaledManaNonNegative | js/data/spells.js:186-234 | `scale*(offset+dam)*mana div den` is non-negative on non-negative stats |
| Spells.LinearFormulaNonNegative | js/data/spells.js:5-312 | the formulas that do not multiply two stats are non-negative on non-negative stats |
| Spells.DragonsFistAtThousandVita | js/data/spells.js:12 | dragon's fist deals 750 at 1000 vita |
| Spells.LookupSpell | js/data/spells.js:5 | a key that finds a spell is that spell's key |
| Spells.LookupSpellKey | js/data/spells.js:5 | every spell is found under its own key, so keys are distinct |
| Spells.LookupSpellMissing | js/data/spells.js:5 | a key finds nothing exactly when no spell has it |
| Spells.LookupSpellFindsOwner | js/data/spells.js:5 | a key that some spell has finds that spell |
| Spells.LookupShortKey | js/data/spells.js:5 | spells with keys of 5, 6 and 8 characters are found under their keys |
| Spells.LookupSevenCharKey | js/data/spells.js:5 | spells with 7-character keys are found under their keys |
| Spells.LookupMediumKey | js/data/spells.js:5 | spells with keys of 9 to 11 characters are found under their keys |
| Spells.LookupTwelveCharKey | js/data/spells.js:5 | spells with 12-character keys are found under their keys |
| Spells.LookupLongKey | js/data/spells.js:5 | spells with keys of 13 to 18 characters are found under their keys |
| Folds.FilterMembers | js/calculator.js:44-45 | filtering keeps exactly the elements that pass and never lengthens |
| Folds.FilterAppend | js/calculator.js:38-56 | filtering a concatenation filters each part |
| Folds.FilterKeepsAll | js/calculator.js:44-45 | a list whose elements all pass is kept whole |
| Folds.FoldAppend | js/data/effects.js:173-200 | a `forEach` over a concatenation runs over the first part, then the second from there |
| Folds.FoldSnoc | js/data/effects.js:173-200 | a key appended last is applied last, once per occurrence |
| Folds.FoldPull | js/data/effects.js:173-200 | with a commuting step, an element in the middle may be applied first |
| Folds.FoldPermutation | js/data/effects.js:173-200 | with a commuting step, any permutation of the selection gives the same result |
| Folds.FoldSkipsNeutral | js/data/effects.js:174-175 | elements that leave every accumulator unchanged can be dropped before folding |
| Folds.FoldIsMergeAll | js/data/effects.js:173-200 | a fold that merges per-element contributions with an associative operation equals the right-nested merge of the contributions |
| Effects.LookupBuff | js/data/effects.js:174 | a key that finds a buff is that buff's key |
| Effects.LookupBuffKey | js/data/effects.js:3-96 | every buff is found under its own key |
| Effects.LookupBuffMissing | js/data/effects.js:174-175 | a key finds nothing exactly when no buff has it |
| Effects.ArcanePowerDamage | js/data/effects.js:55-62 | arcane power's bonus is a multiple of 5 between 5 and 25 |
| Effects.ArcanePowerSteps | js/data/effects.js:55-62 | the bonus is 5 times (tier index + 1), clamped to tiers 0..4, and 5 for an unknown level (-1) |
| Effects.ArcanePowerMonotonic | js/data/effects.js:55-62 | a higher tier index never lowers the bonus |
| Effects.ArcanePowerByLevel | js/data/effects.js:55-62 | by level name: 25, 20, 15 and 10 from 'Sam San' down to '99'; 5 for 'Below 99' and unknown levels |
| Effects.CalculateBuffEffects | js/data/effects.js:161-203 | the mana bonus stays 0 whatever is selected; an empty selection gives multipliers 1.0 and zero bonuses |
| Effects.BuffFoldKeepsMana | js/data/effects.js:169-200 | no buff changes the mana bonus |
| Effects.ApplyIsMerge | js/data/effects.js:173-200 | applying one key equals merging in what that key contributes on its own |
| Effects.ApplyBuffIsMerge | js/data/effects.js:178-199 | applying one table entry equals merging in what it contributes on its own |
| Effects.MergeBuffsAssociative | js/data/effects.js:178-199 | merging effect records is associative |
| Effects.BuffsMergeContributions | js/data/effects.js:161-203 | the result is the product of the present multipliers and the sum of each bonus over every selected occurrence, as the merge of per-key contributions |
| Effects.ApplyBuffKeyCommutes | js/data/effects.js:173-200 | two buffs applied in either order give the same record; this also holds for the source's doubles, since 2.0 scales exactly and zen mode is the only mana multiplier |
| Effects.BuffOrderIrrelevant | js/data/effects.js:173-200 | the selection order of buffs does not matter; this also holds for the source's doubles |
| Effects.UnknownBuffsIgnored | js/data/effects.js:174-175 | keys naming no buff leave the result as if they were not selected |
| Effects.RepeatedBuffAppliesAgain | js/data/effects.js:173-200 | a key selected once more is applied once more |
| Effects.ExclusiveBuffsStack | js/data/effects.js:173-200 | mutual exclusion is not enforced: bless with greater blessing gives +15 hit, potence with greater potence +15 dam |
| Effects.MultipliersCompose | js/data/effects.js:178-199 | limit breaker with empower multiplies damage by 2.4; zen mode gives +20 dam, +20 will and a 1.1 mana multiplier |
| Effects.ArcanePowerUsesLevel | js/data/effects.js:183-188 | arcane power adds the bonus for the character's own level |
| Effects.LookupDebuff | js/data/effects.js:213 | a key that finds a debuff is that debuff's key |
| Effects.LookupDebuffKey | js/data/effects.js:98-158 | every debuff is found under its own key |
| Effects.LookupDebuffMissing | js/data/effects.js:213-214 | a key finds nothing exactly when no debuff has it |
| Effects.CalculateDebuffEffects | js/data/effects.js:206-254 | an empty selection, or one whose keys all name no debuff, gives multiplier 1.0 and AC modifier 0 |
| Effects.UnknownDebuffsIgnored | js/data/effects.js:213-214 | keys naming no debuff leave the result as if they were not selected |
| Effects.ApplyDebuffIsMerge | js/data/effects.js:217-250 | applying one key equals merging in what that key contributes on its own |
| Effects.MergeDebuffsAssociative | js/data/effects.js:229-249 | merging debuff records is associative |
| Effects.DebuffsMergeContributions | js/data/effects.js:206-254 | the AC modifier is the sum of the per-key contributions and the multiplier their exact product |
| Effects.ApplyDebuffKeyCommutes | js/data/effects.js:212-251 | two debuffs applied in either order give the same record, with the multipliers as exact products |
| Effects.DebuffOrderIrrelevant | js/data/effects.js:212-251 | the selection order of debuffs does not matter, with the multipliers as exact products |
| Effects.SleepDartVariants | js/data/effects.js:218-229 | sleep dart's multiplier is exactly one of 1.1 in PvP (even against a boss), 1.2 against a boss otherwise, or 1.5, and it does not touch AC |
| Effects.OnlySleepDartVaries | js/data/effects.js:221-227 | every other debuff's multiplier ignores the mode and the boss flag |
| Effects.AcDebuffsByMode | js/data/effects.js:233-244 | the PvP AC value replaces the base value in PvP: scourge 50 or 35, corrode armor 10 or 8, dissolve armor 15 or 10, corrupted armor/vex 15 in both |
| Effects.ExclusiveDebuffsStack | js/data/effects.js:212-251 | mutual exclusion is not enforced: corrode armor with dissolve armor adds 18 outside PvP |
| Classes.LookupClass | js/data/classes.js:51 | a key that finds a class is that class's key |
| Classes.LookupClassKey | js/data/classes.js:2-43 | every class is found under its own key |
| Classes.LookupClassMissing | js/data/classes.js:51-52 | a key finds nothing exactly when no class has it |
| Classes.GetSpellsForLevel | js/data/classes.js:50-66 | the lookups and the loop compute the reference list: [] for an unknown class or level, otherwise the class's tier lists up to the level's tier, concatenated in tier order |
| Classes.SpellsForLevelMembership | js/data/classes.js:50-66 | a key is in the list if and only if class and level are known and a tier up to the level's lists the key |
| Classes.SpellsThroughTier | js/data/classes.js:57-63 | the loop over tiers 0 to the level's index yields the concatenated tier lists, and a key is in it if and only if one of those tiers lists it |
| Classes.SpellsUpToMembership | js/data/classes.js:57-63 | a key is among the first n tiers' spells if and only if one of those tiers lists it |
| Classes.SpellsUpToPrefix | js/data/classes.js:57-63 | a lower level's list is a prefix of a higher level's |
| Classes.SpellsUpToLength | js/data/classes.js:57-63 | nothing is deduplicated: the length is the sum of the tier lists' lengths |
| Classes.BelowNinetyNineIsFirstTier | js/data/classes.js:50-63 | `getSpellsForLevel(key, 'Below 99')` is exactly the class's first tier list, for each of the four class keys |
| Classes.MageAtIlSan | js/data/classes.js:23-63 | `getSpellsForLevel('mage', 'Il San')` lists blizzard, phoenix, poison cloud, twister, hellfire, pillar of flames and volcano, in that order |
| Classes.ClassSpellsAreKnown | js/data/classes.js:2-43 | every key a class lists names a spell in the spell table |
| Classes.SparkUnlockedByNoClass | js/data/classes.js:2-43 | spark is in the spell table but no class lists it at any tier |
| Calculator.CalculateSpellDamage | js/calculator.js:9-24 | an unknown key gives the 0 sentinel; a spell's own key gives that spell's formula on the stored character and target, unmodified |
| Calculator.EntriesOf | js/calculator.js:44-51 | the entries for a list of keys carry exactly those keys in order, each labelled with the given tier and priced with its spell's damage |
| Calculator.TierEntries | js/calculator.js:43-54 | the forEach over one tier's list yields exactly the entries of the list's keys that name a spell, in list order |
| Calculator.GetAvailableSpells | js/calculator.js:27-59 | the lookups and the loop compute the reference list: [] for an unknown class or level, otherwise each tier's known spells up to the level's tier, with damage and tier name |
| Calculator.EntriesThroughTier | js/calculator.js:38-56 | the loop over tiers 0 to the level's index yields the tier-by-tier list of the first levelIndex + 1 tiers |
| Calculator.AvailableSpellsIds | js/calculator.js:27-59 | the calculator's list carries exactly the keys, in order, of the class table's list for the same class and level |
| Calculator.CollectedIds | js/calculator.js:38-56 | when every listed key is known, the collected entries carry exactly the concatenated lists' keys |
| Calculator.CollectedWellFormed | js/calculator.js:38-56 | every collected entry is a known key priced by its own key, labelled with a tier below n whose list holds it |
| Calculator.SortedAppend | js/calculator.js:38-56 | appending a run of one rank t to a sorted list whose ranks are all at most t keeps it sorted |
| Calculator.CollectedTierOrder | js/calculator.js:38-56 | along the collected entries the tier ranks never decrease |
| Calculator.NoClassSpellSkipped | js/calculator.js:44-45 | the known-spell filter keeps every tier list of every class whole |
| Calculator.AvailableIds | js/calculator.js:38-56 | the calculator's list has the same keys, in the same order, as the class's spell list at that level |
| Calculator.AvailableWellFormed | js/calculator.js:38-56 | every entry is priced with its spell's damage, and its tier lists its key and is no higher than the level |
| Calculator.AvailableTierOrder | js/calculator.js:38-56 | along the list the tiers never decrease: lower tiers' spells come first |
| Calculator.UpdateCharacter | js/calculator.js:62-64 | the target is untouched, and an empty patch leaves the calculator as it was |
| Calculator.UpdateTarget | js/calculator.js:66-68 | the character is untouched, and an empty patch leaves the calculator as it was |
| Calculator.UpdateCharacterFields | js/calculator.js:63 | each field the patch sets takes the new value, and every other field keeps the old one |
| Calculator.UpdateTargetFields | js/calculator.js:67 | each field the patch sets takes the new value, and every other field keeps the old one |
| Calculator.UpdateCharacterComposes | js/calculator.js:62-64 | two updates in a row act as one update whose later fields win |
| Calculator.UpdateTargetComposes | js/calculator.js:66-68 | two updates in a row act as one update whose later fields win |
| Calculator.UpdatesIdempotent | js/calculator.js:62-68 | repeating an update changes nothing more |
| Calculator.FullPatchReplaces | js/calculator.js:62-68 | a patch that sets every field replaces the record outright |
| Calculator.UpdatesCommute | js/calculator.js:62-68 | updating the character then the target, or the reverse, gives the same calculator |

## Left out

- IEEE 754 doubles. The formulas are exact rationals. JavaScript computes
  `0.15 * vita` and similar products in binary floating point, and a product
  that lands within rounding distance of an integer can floor one lower
  there than in the model. For example, fire breath at mana 100 is
  `Math.floor(2.55 * 100)` = 254 in the source but 255 in the model, and
  twister at mana 180 is 62 in the source but 63 in the model. The two
  aggregators' multipliers (`totalDamageMultiplier` and `manaMultiplier`) are
  exact products in the model too, while each `*=` in the source rounds to
  the nearest double.
  - For buffs the order still does not matter in doubles. The only damage
    multipliers are 2.0 and 1.2, and multiplying by 2.0 is exact. The only
    mana multiplier is zen mode's 1.1, so any order runs the same sequence
    of mana products.
  - The product form itself is exact only in the model: zen mode twice
    gives a mana multiplier of 1.2100000000000002.
  - For debuffs, order matters in doubles. Doze/trance twice, then angel's
    blessing, gives 0.9295000000000002, but doze, blessing, doze gives
    0.9295000000000001. Sleep dart then doze gives 1.9500000000000002.
- Effects.DebuffOrderIrrelevant, Effects.ApplyDebuffKeyCommutes: order
  independence is proved for exact products. Under binary64 rounding a
  permuted selection can differ in the last bit of the multiplier.
- Effects.DebuffsMergeContributions, Effects.BuffsMergeContributions: the
  multiplier is the exact product of the contributions. The source's
  repeated `*=` is that product only up to rounding.
- Logging and exceptions. `console.warn` and `console.error` are left out.
  So is the `try`/`catch` in `calculateSpellDamage`: the modelled formulas
  are total, so the catch branch is unreachable.
- The `!spell.calculateDamage` test in `calculateSpellDamage`. Every table
  entry has a damage function, so only the unknown-key half of that test is
  modelled.
- Display metadata. Names, descriptions, `applicableClasses`, `selfOnly` and
  `mutuallyExclusive` play no part in any computation. The lemmas show that
  exclusive pairs stack.
- Function-valued debuff AC modifiers. The debuff aggregator accepts an AC
  modifier that is a function of the character level, but no table entry
  has one. The model therefore has integer AC modifiers only and drops the
  `characterLevel` argument.
- The `gameMode = 'pve'` default. The mode is an explicit string argument,
  and any value other than "pvp" counts as PvE.
- Extra keys in update patches. JavaScript's object spread can add keys the
  record did not have, or set a key to `undefined`. A patch here is one
  optional value per existing field.
- The page script `js/main.js`. It reads form inputs and renders results.
  It is not part of this model.
- Effective stats, damage multipliers, AC scaling, clamping and
  before/after comparisons. No modelled file computes any of them: the
  calculator hands the raw stats to the formulas, and nothing applies the
  aggregated buff or debuff records to damage.
- Classes.GetSpellsForLevel, Calculator.GetAvailableSpells: class lookup
  finds only the four own keys of `CLASSES`. In the source an inherited
  name such as `constructor`, `toString` or `__proto__` is a truthy value
  with no `spellsByLevel`, so with a valid level the loop throws a
  `TypeError`; the model returns [] instead. The page only passes names
  from `Object.keys(CLASSES)`. The same own-key lookup for `SPELLS`, `BUFFS`
  and `DEBUFFS` changes nothing visible: an inherited value has no
  `calculateDamage` and none of the effect fields, so the source returns 0
  or skips the key, as the model does.
- Spells.Formula: its own contract states only which spells return which
  breakdown shape. The values are stated through `Spells.FormulaIsExact` and
  the lemmas after it.

=== FILE: calculator.dfy ===
/**
  The damage calculator: a character and a target, the damage of one spell
  for them, the list of spells the character has unlocked with their
  damage, and updates that overwrite some of the character's or the
  target's fields.
*/
module Calculator {
  import opened Wrappers
  import opened Tiers
  import opened Stats
  import opened Spells
  import opened Classes
  import opened Folds

  datatype DamageCalculator = DamageCalculator(character: Character, target: Target)

  predicate IsSpellKey(key: string) {
    LookupSpell(key).Some?
  }

  /**
    The damage of the spell stored under `spellId`, or the 0 sentinel when
    there is none.
  */
  function CalculateSpellDamage(calculator: DamageCalculator, spellId: string): (d: Damage)
    ensures !IsSpellKey(spellId) ==> d == Unknown
    ensures forall s :: SpellKey(s) == spellId ==> d == Formula(s, calculator.character, calculator.target)
  {
    LookupSpellFindsOwner(spellId);
    match LookupSpell(spellId)
    case None => Unknown
    case Some(s) => Formula(s, calculator.character, calculator.target)
  }

  /** A spell the character has, with its damage and the tier that unlocked it. */
  datatype SpellEntry = SpellEntry(id: string, damage: Damage, levelTier: string)

  /** The keys of the entries, in order. */
  function Ids(entries: seq<SpellEntry>): seq<string> {
    seq(|entries|, k requires 0 <= k < |entries| => entries[k].id)
  }

  /** What an entry promises: its damage is its spell's, and its tier lists it. */
  predicate WellFormedEntry(calculator: DamageCalculator, c: ClassId, e: SpellEntry) {
    && e.damage == CalculateSpellDamage(calculator, e.id)
    && 0 <= TierIndex(e.levelTier)
    && e.id in SpellsByLevel(c, TierAt(TierIndex(e.levelTier)))
  }

  /** The damage the calculator shows for a key. */
  function Price(calculator: DamageCalculator): string -> Damage {
    key => CalculateSpellDamage(calculator, key)
  }

  /**
    The entries for `keys`, in order: each key with its price, labelled with
    the tier `tierName`.
  */
  function EntriesOf(price: string -> Damage, keys: seq<string>, tierName: string): (entries: seq<SpellEntry>)
    ensures Ids(entries) == keys
    ensures forall e :: e in entries ==> e.levelTier == tierName && e.damage == price(e.id)
  {
    seq(|keys|, k requires 0 <= k < |keys| => SpellEntry(keys[k], price(keys[k]), tierName))
  }

  /**
    The list built from the first `n` tier lists: tier after tier, the
    entries of the list's keys that pass `known`, labelled with the tier's
    name.
  */
  function Collected(price: string -> Damage, known: string -> bool, lists: seq<seq<string>>, n: nat): seq<SpellEntry>
    requires n <= |lists| <= |LevelTiers|
  {
    if n == 0 then []
    else
      var tierSpells := Filter(known, lists[n - 1]);
      Collected(price, known, lists, n - 1) + EntriesOf(price, tierSpells, LevelTiers[n - 1])
  }

  /** The calculator's list for class `c` after the first `n` tiers. */
  function AvailableUpTo(calculator: DamageCalculator, c: ClassId, n: nat): seq<SpellEntry>
    requires n <= |LevelTiers|
  {
    Collected(Price(calculator), IsSpellKey, TierLists(c), n)
  }

  /**
    The entries of one tier: each key of the tier's list that passes
    `known`, in list order, with its price, labelled with the tier's name.
  */
  method TierEntries(price: string -> Damage, known: string -> bool, tierSpells: seq<string>, tierName: string)
    returns (entries: seq<SpellEntry>)
    ensures entries == EntriesOf(price, Filter(known, tierSpells), tierName)
  {
    entries := [];
    var j := 0;
    while j < |tierSpells|
      invariant 0 <= j <= |tierSpells|
      invariant entries == EntriesOf(price, Filter(known, tierSpells[..j]), tierName)
    {
      var spellId := tierSpells[j];
      FilterAppend(known, tierSpells[..j], [spellId]);
      assert tierSpells[..j + 1] == tierSpells[..j] + [spellId];
      if known(spellId) {
        EntriesOfSnoc(price, Filter(known, tierSpells[..j]), spellId, tierName);
        entries := entries + [SpellEntry(spellId, price(spellId), tierName)];
      } else {
        assert Filter(known, [spellId]) == [];
      }
      j := j + 1;
    }
    assert tierSpells[..j] == tierSpells;
  }

  lemma EntriesOfSnoc(price: string -> Damage, keys: seq<string>, key: string, tierName: string)
    ensures EntriesOf(price, keys + [key], tierName) == EntriesOf(price, keys, tierName) + [SpellEntry(key, price(key), tierName)]
  {
    var a := EntriesOf(price, keys + [key], tierName);
    var b := EntriesOf(price, keys, tierName) + [SpellEntry(key, price(key), tierName)];
    assert |a| == |b|;
    forall k | 0 <= k < |a|
      ensures a[k] == b[k]
    {
      if k < |keys| {
        assert (keys + [key])[k] == keys[k];
      }
    }
  }

  /**
    Every spell the character has unlocked, tier by tier up to the
    character's level, each with its damage and the tier that unlocked it.
    An unknown class or level yields nothing.
  */
  function AvailableSpells(calculator: DamageCalculator): seq<SpellEntry> {
    match LookupClass(calculator.character.className)
    case None => []
    case Some(c) =>
      var levelIndex := TierIndex(calculator.character.level);
      if levelIndex == -1 then [] else AvailableUpTo(calculator, c, levelIndex + 1)
  }

  /** `getAvailableSpells`: the lookups, then the loop over the tiers. */
  method GetAvailableSpells(calculator: DamageCalculator) returns (entries: seq<SpellEntry>)
    ensures entries == AvailableSpells(calculator)
  {
    var classData := LookupClass(calculator.character.className);
    if classData.None? {
      return [];
    }
    var levelIndex := TierIndex(calculator.character.level);
    if levelIndex == -1 {
      return [];
    }
    entries := EntriesThroughTier(calculator, classData.value, levelIndex);
  }

  /**
    The loop of `GetAvailableSpells` once class and level are known: the
    entries of tiers 0 to `levelIndex`, in tier order. Keys naming no spell
    would be skipped; `AvailableIds` shows that none is.
  */
  method EntriesThroughTier(calculator: DamageCalculator, c: ClassId, levelIndex: nat) returns (entries: seq<SpellEntry>)
    requires levelIndex < |LevelTiers|
    ensures entries == AvailableUpTo(calculator, c, levelIndex + 1)
  {
    var lists := TierLists(c);
    entries := [];
    var i := 0;
    while i <= levelIndex
      invariant 0 <= i <= levelIndex + 1
      invariant entries == Collected(Price(calculator), IsSpellKey, lists, i)
    {
      var tierEntries := TierEntries(Price(calculator), IsSpellKey, lists[i], LevelTiers[i]);
      entries := entries + tierEntries;
      i := i + 1;
    }
  }

  /**
    The calculator's list carries the same keys, in the same order, as the
    class table's list for the character's class and level.
  */
  lemma AvailableSpellsIds(calculator: DamageCalculator)
    ensures Ids(AvailableSpells(calculator)) == SpellsForLevel(calculator.character.className, calculator.character.level)
  {
    var classData := LookupClass(calculator.character.className);
    if classData.Some? && TierIndex(calculator.character.level) >= 0 {
      AvailableIds(calculator, classData.value, TierIndex(calculator.character.level) + 1);
    }
  }

  lemma IdsAppend(entries: seq<SpellEntry>, more: seq<SpellEntry>)
    ensures Ids(entries + more) == Ids(entries) + Ids(more)
  {
  }

  /** When every listed key passes `known`, the list's keys are the tier lists concatenated. */
  lemma {:induction false} CollectedIds(price: string -> Damage, known: string -> bool, lists: seq<seq<string>>, n: nat)
    requires n <= |lists| <= |LevelTiers|
    requires forall i, key :: 0 <= i < n && key in lists[i] ==> known(key)
    ensures Ids(Collected(price, known, lists, n)) == Concat(lists, n)
  {
    if n > 0 {
      CollectedIds(price, known, lists, n - 1);
      FilterKeepsAll(known, lists[n - 1]);
      IdsAppend(Collected(price, known, lists, n - 1), EntriesOf(price, lists[n - 1], LevelTiers[n - 1]));
    }
  }

  /**
    Every entry is priced, passed `known`, and carries the name of one of
    the first `n` tiers, whose list holds its key.
  */
  lemma {:induction false} CollectedWellFormed(price: string -> Damage, known: string -> bool, lists: seq<seq<string>>, n: nat)
    requires n <= |lists| <= |LevelTiers|
    ensures forall e :: e in Collected(price, known, lists, n) ==>
      && e.damage == price(e.id) && known(e.id)
      && 0 <= TierIndex(e.levelTier) < n && e.id in lists[TierIndex(e.levelTier)]
  {
    if n > 0 {
      CollectedWellFormed(price, known, lists, n - 1);
      TierIndexOfName(n - 1);
      var keys := Filter(known, lists[n - 1]);
      FilterMembers(known, lists[n - 1]);
      var tier := EntriesOf(price, keys, LevelTiers[n - 1]);
      forall e | e in tier
        ensures e.id in keys
      {
        var k :| 0 <= k < |tier| && tier[k] == e;
        assert Ids(tier)[k] == e.id;
      }
    }
  }

  /** The tier positions of the entries, along the list. */
  function Ranks(entries: seq<SpellEntry>): seq<int> {
    seq(|entries|, k requires 0 <= k < |entries| => TierIndex(entries[k].levelTier))
  }

  predicate Sorted(r: seq<int>) {
    forall k, m :: 0 <= k < m < |r| ==> r[k] <= r[m]
  }

  /** A sorted list followed by elements no smaller than any of it stays sorted. */
  lemma SortedAppend(a: seq<int>, b: seq<int>, t: int)
    requires Sorted(a)
    requires forall k :: 0 <= k < |a| ==> a[k] <= t
    requires forall k :: 0 <= k < |b| ==> b[k] == t
    ensures Sorted(a + b)
  {
    var ab := a + b;
    forall k, m | 0 <= k < m < |ab|
      ensures ab[k] <= ab[m]
    {
      if m >= |a| {
        assert ab[m] == b[m - |a|];
        if k >= |a| {
          assert ab[k] == b[k - |a|];
        }
      }
    }
  }

  /** The ranks of two lists placed end to end are their ranks placed end to end. */
  lemma RanksAppend(a: seq<SpellEntry>, b: seq<SpellEntry>)
    ensures Ranks(a + b) == Ranks(a) + Ranks(b)
  {
    var ab := a + b;
    forall k | 0 <= k < |ab|
      ensures Ranks(ab)[k] == (Ranks(a) + Ranks(b))[k]
    {
      if k < |a| {
        assert ab[k] == a[k];
      } else {
        assert ab[k] == b[k - |a|];
      }
    }
  }

  /** Along the list the tiers never go down: lower tiers' entries come first. */
  lemma {:induction false} CollectedTierOrder(price: string -> Damage, known: string -> bool, lists: seq<seq<string>>, n: nat)
    requires n <= |lists| <= |LevelTiers|
    ensures Sorted(Ranks(Collected(price, known, lists, n)))
  {
    if n > 0 {
      CollectedTierOrder(price, known, lists, n - 1);
      CollectedWellFormed(price, known, lists, n - 1);
      TierIndexOfName(n - 1);
      var before := Collected(price, known, lists, n - 1);
      var tier := EntriesOf(price, Filter(known, lists[n - 1]), LevelTiers[n - 1]);
      RanksAppend(before, tier);
      var r, rt := Ranks(before), Ranks(tier);
      forall k | 0 <= k < |r|
        ensures r[k] <= n - 1
      {
        assert r[k] == TierIndex(before[k].levelTier);
        assert before[k] in before;
      }
      forall k | 0 <= k < |rt|
        ensures rt[k] == n - 1
      {
        assert rt[k] == TierIndex(tier[k].levelTier);
        assert tier[k] in tier;
      }
      SortedAppend(r, rt, n - 1);
    }
  }

  /** No class lists a key that names no spell, so the known-spell filter keeps a tier's list whole. */
  lemma NoClassSpellSkipped(c: ClassId, tier: Tier)
    ensures Filter(IsSpellKey, SpellsByLevel(c, tier)) == SpellsByLevel(c, tier)
  {
    forall key | key in SpellsByLevel(c, tier)
      ensures IsSpellKey(key)
    {
      ClassSpellsAreKnown(c, tier, key);
    }
    FilterKeepsAll(IsSpellKey, SpellsByLevel(c, tier));
  }

  /** The calculator's list has the class's spell list at the level as its keys, in the same order. */
  lemma AvailableIds(calculator: DamageCalculator, c: ClassId, n: nat)
    requires n <= |LevelTiers|
    ensures Ids(AvailableUpTo(calculator, c, n)) == SpellsUpTo(c, n)
  {
    var lists := TierLists(c);
    forall i, key | 0 <= i < n && key in lists[i]
      ensures IsSpellKey(key)
    {
      ClassSpellsAreKnown(c, TierAt(i), key);
    }
    CollectedIds(Price(calculator), IsSpellKey, lists, n);
  }

  /**
    Every entry of the calculator's list is well formed (priced with its
    spell's damage, listed by its tier) and its tier is one of the first `n`.
  */
  lemma AvailableWellFormed(calculator: DamageCalculator, c: ClassId, n: nat)
    requires n <= |LevelTiers|
    ensures forall e :: e in AvailableUpTo(calculator, c, n) ==> WellFormedEntry(calculator, c, e) && TierIndex(e.levelTier) < n
  {
    CollectedWellFormed(Price(calculator), IsSpellKey, TierLists(c), n);
  }

  /** Along the calculator's list the tiers never go down. */
  lemma AvailableTierOrder(calculator: DamageCalculator, c: ClassId, n: nat)
    requires n <= |LevelTiers|
    ensures Sorted(Ranks(AvailableUpTo(calculator, c, n)))
  {
    CollectedTierOrder(Price(calculator), IsSpellKey, TierLists(c), n);
  }

  // --------------------------------------------------------------- updates

  /** The fields an update sets; `None` leaves a field as it is. */
  datatype CharacterPatch = CharacterPatch(
    vita: Option<int>, mana: Option<int>, dam: Option<int>, hit: Option<int>,
    might: Option<int>, will: Option<int>, grace: Option<int>,
    className: Option<string>, level: Option<string>)

  datatype TargetPatch = TargetPatch(ac: Option<int>, vita: Option<int>, mana: Option<int>, isBoss: Option<bool>)

  const NoCharacterChange := CharacterPatch(None, None, None, None, None, None, None, None, None)
  const NoTargetChange := TargetPatch(None, None, None, None)

  function Override<T>(current: T, replacement: Option<T>): T {
    if replacement.Some? then replacement.value else current
  }

  /** The character's fields overwritten by the patch's set fields; the target stays. */
  function UpdateCharacter(calculator: DamageCalculator, p: CharacterPatch): (r: DamageCalculator)
    ensures r.target == calculator.target
    ensures p == NoCharacterChange ==> r == calculator
  {
    var ch := calculator.character;
    calculator.(character := Character(
      Override(ch.vita, p.vita), Override(ch.mana, p.mana), Override(ch.dam, p.dam),
      Override(ch.hit, p.hit), Override(ch.might, p.might), Override(ch.will, p.will),
      Override(ch.grace, p.grace), Override(ch.className, p.className), Override(ch.level, p.level)))
  }

  /** The target's fields overwritten by the patch's set fields; the character stays. */
  function UpdateTarget(calculator: DamageCalculator, p: TargetPatch): (r: DamageCalculator)
    ensures r.character == calculator.character
    ensures p == NoTargetChange ==> r == calculator
  {
    var t := calculator.target;
    calculator.(target := Target(
      Override(t.ac, p.ac), Override(t.vita, p.vita), Override(t.mana, p.mana), Override(t.isBoss, p.isBoss)))
  }

  /** Each field the patch sets takes the patch's value; every other field keeps its value. */
  lemma UpdateCharacterFields(calculator: DamageCalculator, p: CharacterPatch)
    ensures var before, after := calculator.character, UpdateCharacter(calculator, p).character;
      && after.vita == (if p.vita.Some? then p.vita.value else before.vita)
      && after.mana == (if p.mana.Some? then p.mana.value else before.mana)
      && after.dam == (if p.dam.Some? then p.dam.value else before.dam)
      && after.hit == (if p.hit.Some? then p.hit.value else before.hit)
      && after.might == (if p.might.Some? then p.might.value else before.might)
      && after.will == (if p.will.Some? then p.will.value else before.will)
      && after.grace == (if p.grace.Some? then p.grace.value else before.grace)
      && after.className == (if p.className.Some? then p.className.value else before.className)
      && after.level == (if p.level.Some? then p.level.value else before.level)
  {
  }

  /** Each field the patch sets takes the patch's value; every other field keeps its value. */
  lemma UpdateTargetFields(calculator: DamageCalculator, p: TargetPatch)
    ensures var before, after := calculator.target, UpdateTarget(calculator, p).target;
      && after.ac == (if p.ac.Some? then p.ac.value else before.ac)
      && after.vita == (if p.vita.Some? then p.vita.value else before.vita)
      && after.mana == (if p.mana.Some? then p.mana.value else before.mana)
      && after.isBoss == (if p.isBoss.Some? then p.isBoss.value else before.isBoss)
  {
  }

  /** The patch `q` applied after `p`: `q`'s set fields win. */
  function ThenCharacter(p: CharacterPatch, q: CharacterPatch): CharacterPatch {
    CharacterPatch(
      if q.vita.Some? then q.vita else p.vita,
      if q.mana.Some? then q.mana else p.mana,
      if q.dam.Some? then q.dam else p.dam,
      if q.hit.Some? then q.hit else p.hit,
      if q.might.Some? then q.might else p.might,
      if q.will.Some? then q.will else p.will,
      if q.grace.Some? then q.grace else p.grace,
      if q.className.Some? then q.className else p.className,
      if q.level.Some? then q.level else p.level)
  }

  function ThenTarget(p: TargetPatch, q: TargetPatch): TargetPatch {
    TargetPatch(
      if q.ac.Some? then q.ac else p.ac,
      if q.vita.Some? then q.vita else p.vita,
      if q.mana.Some? then q.mana else p.mana,
      if q.isBoss.Some? then q.isBoss else p.isBoss)
  }

  /** Two character updates in a row act as one whose later fields win. */
  lemma UpdateCharacterComposes(calculator: DamageCalculator, p: CharacterPatch, q: CharacterPatch)
    ensures UpdateCharacter(UpdateCharacter(calculator, p), q) == UpdateCharacter(calculator, ThenCharacter(p, q))
  {
  }

  /** Two target updates in a row act as one whose later fields win. */
  lemma UpdateTargetComposes(calculator: DamageCalculator, p: TargetPatch, q: TargetPatch)
    ensures UpdateTarget(UpdateTarget(calculator, p), q) == UpdateTarget(calculator, ThenTarget(p, q))
  {
  }

  /** Repeating an update changes nothing more. */
  lemma UpdatesIdempotent(calculator: DamageCalculator, p: CharacterPatch, q: TargetPatch)
    ensures UpdateCharacter(UpdateCharacter(calculator, p), p) == UpdateCharacter(calculator, p)
    ensures UpdateTarget(UpdateTarget(calculator, q), q) == UpdateTarget(calculator, q)
  {
    UpdateCharacterComposes(calculator, p, p);
    assert ThenCharacter(p, p) == p;
    UpdateTargetComposes(calculator, q, q);
    assert ThenTarget(q, q) == q;
  }

  /** A patch that sets every field replaces the character outright, whatever it was. */
  lemma FullPatchReplaces(calculator: DamageCalculator, ch: Character, t: Target)
    ensures UpdateCharacter(calculator, CharacterPatch(
      Some(ch.vita), Some(ch.mana), Some(ch.dam), Some(ch.hit), Some(ch.might), Some(ch.will),
      Some(ch.grace), Some(ch.className), Some(ch.level))).character == ch
    ensures UpdateTarget(calculator, TargetPatch(Some(t.ac), Some(t.vita), Some(t.mana), Some(t.isBoss))).target == t
  {
  }

  /** Updating the character and then the target, or the other way round, ends the same. */
  lemma UpdatesCommute(calculator: DamageCalculator, p: CharacterPatch, q: TargetPatch)
    ensures UpdateTarget(UpdateCharacter(calculator, p), q) == UpdateCharacter(UpdateTarget(calculator, q), p)
  {
  }
}

=== FILE: classes.dfy ===
/**
  The four classes, the spells each unlocks at each level tier, and the list
  of spells a class has at a level: every tier's spells up to and including
  that level's tier, tier by tier.
*/
module Classes {
  import opened Wrappers
  import opened Tiers
  import opened Spells
  import opened Folds

  datatype ClassId = Rogue | Warrior | Mage | Poet

  /** The key under which a class is stored in the class table. */
  function ClassKey(c: ClassId): string {
    match c
    case Rogue => "rogue"
    case Warrior => "warrior"
    case Mage => "mage"
    case Poet => "poet"
  }

  /** The class stored under `key`, if any. */
  function LookupClass(key: string): (r: Option<ClassId>)
    ensures r.Some? ==> ClassKey(r.value) == key
  {
    match |key|
    case 4 =>
      if key == ClassKey(Mage) then Some(Mage)
      else if key == ClassKey(Poet) then Some(Poet)
      else None
    case 5 => if key == ClassKey(Rogue) then Some(Rogue) else None
    case 7 => if key == ClassKey(Warrior) then Some(Warrior) else None
    case _ => None
  }

  /** Every class is found under its own key. */
  lemma LookupClassKey(c: ClassId)
    ensures LookupClass(ClassKey(c)) == Some(c)
  {
  }

  /** A key finds nothing exactly when no class has it. */
  lemma LookupClassMissing(key: string)
    ensures LookupClass(key).None? <==> forall c :: ClassKey(c) != key
  {
    forall c | ClassKey(c) == key
      ensures LookupClass(key).Some?
    {
      LookupClassKey(c);
    }
  }

  /** The spell keys a class unlocks at a tier, in table order. */
  function SpellsByLevel(c: ClassId, tier: Tier): seq<string> {
    match c
    case Rogue =>
      (match tier
      case Below99 => [SpellKey(Ignite), SpellKey(DaggerToss), SpellKey(DesperateAttack)]
      case NinetyNine => [SpellKey(LethalStrike), SpellKey(BombBarrage)]
      case IlSan => []
      case EeSan => [SpellKey(Bladestorm)]
      case SamSan => [SpellKey(FocusedBlow), SpellKey(BladeDancer)])
    case Warrior =>
      (match tier
      case Below99 => [SpellKey(DragonsFist), SpellKey(DevastatingBlow)]
      case NinetyNine => [SpellKey(Berserk), SpellKey(Whirlwind)]
      case IlSan => [SpellKey(BattleStorm)]
      case EeSan => [SpellKey(Assault), SpellKey(DragonsConvulsion)]
      case SamSan => [SpellKey(Siege)])
    case Mage =>
      (match tier
      case Below99 => [SpellKey(Blizzard), SpellKey(Phoenix), SpellKey(PoisonCloud), SpellKey(Twister)]
      case NinetyNine => [SpellKey(Hellfire)]
      case IlSan => [SpellKey(PillarOfFlames), SpellKey(Volcano)]
      case EeSan => [SpellKey(Inferno)]
      case SamSan => [SpellKey(DoomsFire), SpellKey(FireBreath)])
    case Poet =>
      (match tier
      case Below99 => [SpellKey(CrashingWake), SpellKey(HealingRain)]
      case NinetyNine => [SpellKey(Retribution), SpellKey(Tornado)]
      case IlSan => []
      case EeSan => []
      case SamSan => [SpellKey(ZenMode)])
  }

  /** The class's tier lists, indexed by the tiers' positions in `LevelTiers`. */
  function TierLists(c: ClassId): seq<seq<string>> {
    seq(|LevelTiers|, i requires 0 <= i < |LevelTiers| => SpellsByLevel(c, TierAt(i)))
  }

  /** The spells of the first `n` tiers, concatenated in tier order. */
  function SpellsUpTo(c: ClassId, n: nat): seq<string>
    requires n <= |LevelTiers|
  {
    Concat(TierLists(c), n)
  }

  /**
    The spells of class `className` at level `levelTier`: nothing for an
    unknown class or level, otherwise every tier's list up to and including
    the level's, in tier order.
  */
  function SpellsForLevel(className: string, levelTier: string): seq<string> {
    match LookupClass(className)
    case None => []
    case Some(c) =>
      var levelIndex := TierIndex(levelTier);
      if levelIndex == -1 then [] else SpellsUpTo(c, levelIndex + 1)
  }

  /**
    A key is in the list for a class and level exactly when both are known
    and one of the tiers up to the level's lists the key.
  */
  lemma SpellsForLevelMembership(className: string, levelTier: string, key: string)
    ensures key in SpellsForLevel(className, levelTier) <==>
      LookupClass(className).Some? && TierIndex(levelTier) >= 0 &&
      exists i :: 0 <= i <= TierIndex(levelTier) && key in SpellsByLevel(LookupClass(className).value, TierAt(i))
  {
    if LookupClass(className).Some? && TierIndex(levelTier) >= 0 {
      SpellsUpToMembership(LookupClass(className).value, TierIndex(levelTier) + 1);
    }
  }

  /** `getSpellsForLevel`: the lookups, then the loop over the tiers. */
  method GetSpellsForLevel(className: string, levelTier: string) returns (spells: seq<string>)
    ensures spells == SpellsForLevel(className, levelTier)
  {
    var classData := LookupClass(className);
    if classData.None? {
      return [];
    }
    var levelIndex := TierIndex(levelTier);
    if levelIndex == -1 {
      return [];
    }
    spells := SpellsThroughTier(classData.value, levelIndex);
  }

  /**
    The loop of `GetSpellsForLevel` once class and level are known: the
    lists of tiers 0 to `levelIndex`, concatenated. A key is in the result
    exactly when one of those tiers lists it.
  */
  method SpellsThroughTier(c: ClassId, levelIndex: nat) returns (spells: seq<string>)
    requires levelIndex < |LevelTiers|
    ensures forall key :: key in spells <==> exists i :: 0 <= i <= levelIndex && key in SpellsByLevel(c, TierAt(i))
    ensures spells == SpellsUpTo(c, levelIndex + 1)
  {
    spells := [];
    var i := 0;
    while i <= levelIndex
      invariant 0 <= i <= levelIndex + 1
      invariant spells == SpellsUpTo(c, i)
    {
      spells := spells + SpellsByLevel(c, TierAt(i));
      i := i + 1;
    }
    SpellsUpToMembership(c, levelIndex + 1);
  }

  /** A key is among the first `n` tiers' spells exactly when one of those tiers lists it. */
  lemma {:induction false} SpellsUpToMembership(c: ClassId, n: nat)
    requires n <= |LevelTiers|
    ensures forall key :: key in SpellsUpTo(c, n) <==> exists i :: 0 <= i < n && key in SpellsByLevel(c, TierAt(i))
  {
    if n > 0 {
      assert SpellsUpTo(c, n) == SpellsUpTo(c, n - 1) + SpellsByLevel(c, TierAt(n - 1));
      SpellsUpToMembership(c, n - 1);
    }
  }

  /** A higher level only adds spells: the lower level's list is a prefix. */
  lemma {:induction false} SpellsUpToPrefix(c: ClassId, m: nat, n: nat)
    requires m <= n <= |LevelTiers|
    ensures SpellsUpTo(c, m) <= SpellsUpTo(c, n)
    decreases n
  {
    if m < n {
      SpellsUpToPrefix(c, m, n - 1);
    }
  }

  /** The number of spells the first `n` tiers list, tier by tier. */
  function TierLengthSum(c: ClassId, n: nat): nat
    requires n <= |LevelTiers|
  {
    if n == 0 then 0 else TierLengthSum(c, n - 1) + |SpellsByLevel(c, TierAt(n - 1))|
  }

  /** Nothing is dropped or merged: the list is as long as the tier lists together. */
  lemma {:induction false} SpellsUpToLength(c: ClassId, n: nat)
    requires n <= |LevelTiers|
    ensures |SpellsUpTo(c, n)| == TierLengthSum(c, n)
  {
    if n > 0 {
      SpellsUpToLength(c, n - 1);
    }
  }

  /** A class at 'Below 99' has exactly its first tier's list. */
  lemma BelowNinetyNineIsFirstTier(c: ClassId)
    ensures SpellsForLevel(ClassKey(c), "Below 99") == SpellsByLevel(c, Below99)
  {
    LookupClassKey(c);
    TierIndexOfName(0);
    assert TierAt(0) == Below99;
    assert SpellsUpTo(c, 1) == SpellsByLevel(c, Below99);
  }

  /** A mage at 'Il San' has the first three tiers' seven spells. */
  lemma MageAtIlSan()
    ensures SpellsForLevel("mage", "Il San") == [
      SpellKey(Blizzard), SpellKey(Phoenix), SpellKey(PoisonCloud), SpellKey(Twister),
      SpellKey(Hellfire), SpellKey(PillarOfFlames), SpellKey(Volcano)]
  {
    LookupClassKey(Mage);
    TierIndexOfName(2);
    assert TierAt(0) == Below99 && TierAt(1) == NinetyNine && TierAt(2) == IlSan;
    assert SpellsUpTo(Mage, 1) == SpellsByLevel(Mage, Below99);
    assert SpellsUpTo(Mage, 2) == SpellsByLevel(Mage, Below99) + SpellsByLevel(Mage, NinetyNine);
  }

  /** Every spell a class lists is in the spell table. */
  lemma ClassSpellsAreKnown(c: ClassId, tier: Tier, key: string)
    requires key in SpellsByLevel(c, tier)
    ensures LookupSpell(key).Some?
  {
    forall s ensures LookupSpell(SpellKey(s)) == Some(s) {
      LookupSpellKey(s);
    }
  }

  /** Spark is in the spell table, but no class unlocks it at any tier. */
  lemma SparkUnlockedByNoClass(c: ClassId, tier: Tier)
    ensures SpellKey(Spark) !in SpellsByLevel(c, tier)
  {
    forall s ensures LookupSpell(SpellKey(s)) == Some(s) {
      LookupSpellKey(s);
    }
  }
}

=== FILE: effects.dfy ===
/**
  Buffs cast on the character and debuffs cast on the target, and the two
  aggregators that fold a selection of them, in selection order, into one
  effect record. Multipliers are exact `real` products; the source's `*=`
  rounds each product to a double, so the merge-of-contributions lemmas and
  the debuff order lemmas hold there only up to that rounding.
*/
module Effects {
  import opened Wrappers
  import opened Tiers
  import opened Stats
  import opened Folds

  // ---------------------------------------------------------------- buffs

  datatype BuffId =
    | Bless | Potence | GreaterBlessing | GreaterPotence | LimitBreaker
    | ArcanePower
    | AngelsBlessingBuff | Empower | ZenMode

  /** The key under which a buff is stored in the buff table. */
  function BuffKey(b: BuffId): string {
    match b
    case Bless => "bless"
    case Potence => "potence"
    case GreaterBlessing => "greater_blessing"
    case GreaterPotence => "greater_potence"
    case LimitBreaker => "limit_breaker"
    case ArcanePower => "arcane_power"
    case AngelsBlessingBuff => "angels_blessing_buff"
    case Empower => "empower"
    case ZenMode => "zen_mode"
  }

  /** The buff stored under `key`, if any; keys are compared grouped by length. */
  function LookupBuff(key: string): (r: Option<BuffId>)
    ensures r.Some? ==> BuffKey(r.value) == key
  {
    match |key|
    case 5 => if key == BuffKey(Bless) then Some(Bless) else None
    case 7 =>
      if key == BuffKey(Potence) then Some(Potence)
      else if key == BuffKey(Empower) then Some(Empower)
      else None
    case 8 => if key == BuffKey(ZenMode) then Some(ZenMode) else None
    case 12 => if key == BuffKey(ArcanePower) then Some(ArcanePower) else None
    case 13 => if key == BuffKey(LimitBreaker) then Some(LimitBreaker) else None
    case 15 => if key == BuffKey(GreaterPotence) then Some(GreaterPotence) else None
    case 16 => if key == BuffKey(GreaterBlessing) then Some(GreaterBlessing) else None
    case 20 => if key == BuffKey(AngelsBlessingBuff) then Some(AngelsBlessingBuff) else None
    case _ => None
  }

  /** Every buff is found under its own key. */
  lemma LookupBuffKey(b: BuffId)
    ensures LookupBuff(BuffKey(b)) == Some(b)
  {
  }

  /** A key finds nothing exactly when no buff has it. */
  lemma LookupBuffMissing(key: string)
    ensures LookupBuff(key).None? <==> forall b :: BuffKey(b) != key
  {
    forall b | BuffKey(b) == key
      ensures LookupBuff(key).Some?
    {
      LookupBuffKey(b);
    }
  }

  predicate IsBuffKey(key: string) {
    LookupBuff(key).Some?
  }

  /** A buff's damage bonus is absent, a fixed number, or a function of the level. */
  datatype DamageBonus = NoDamageBonus | Flat(amount: int) | ScalesWithLevel

  /**
    One buff table entry. A multiplier of 0.0 or a bonus of 0 stands for a
    field the entry does not have: both are falsy, so the aggregator skips
    them alike.
  */
  datatype Buff = Buff(
    damageMultiplier: real,
    damageBonus: DamageBonus,
    hitBonus: int,
    mightBonus: int,
    willBonus: int,
    graceBonus: int,
    manaMultiplier: real)

  /** The buff table. */
  function BuffTable(b: BuffId): Buff {
    match b
    case Bless => Buff(0.0, NoDamageBonus, 5, 0, 0, 0, 0.0)
    case Potence => Buff(0.0, Flat(5), 0, 0, 0, 0, 0.0)
    case GreaterBlessing => Buff(0.0, NoDamageBonus, 10, 0, 0, 0, 0.0)
    case GreaterPotence => Buff(0.0, Flat(10), 0, 0, 0, 0, 0.0)
    case LimitBreaker => Buff(2.0, NoDamageBonus, 0, 0, 0, 0, 0.0)
    case ArcanePower => Buff(0.0, ScalesWithLevel, 0, 0, 0, 0, 0.0)
    case AngelsBlessingBuff => Buff(0.0, NoDamageBonus, 0, 7, 6, 5, 0.0)
    case Empower => Buff(1.2, NoDamageBonus, 0, 0, 0, 0, 0.0)
    case ZenMode => Buff(0.0, Flat(20), 0, 0, 20, 0, 1.1)
  }

  /** Arcane power's damage bonus for a level's index in `LevelTiers` (-1 for an unknown level). */
  function ArcanePowerDamage(tierIndex: int): (bonus: int)
    ensures 5 <= bonus <= 25 && bonus % 5 == 0
  {
    if tierIndex >= 4 then 25
    else if tierIndex >= 3 then 20
    else if tierIndex >= 2 then 15
    else if tierIndex >= 1 then 10
    else 5
  }

  /** Each tier adds five; below the first tier, and from the fifth on, it stays put. */
  lemma ArcanePowerSteps(tierIndex: int)
    ensures ArcanePowerDamage(tierIndex) == 5 * (if tierIndex < 0 then 1 else if tierIndex > 4 then 5 else tierIndex + 1)
  {
  }

  /** A higher level never lowers arcane power's bonus. */
  lemma ArcanePowerMonotonic(i: int, j: int)
    requires i <= j
    ensures ArcanePowerDamage(i) <= ArcanePowerDamage(j)
  {
  }

  /** Arcane power by level name: 5 for 'Below 99' or an unknown level, up to 25 for 'Sam San'. */
  lemma ArcanePowerByLevel(level: string)
    ensures level == TierName(SamSan) ==> ArcanePowerDamage(TierIndex(level)) == 25
    ensures level == TierName(EeSan) ==> ArcanePowerDamage(TierIndex(level)) == 20
    ensures level == TierName(IlSan) ==> ArcanePowerDamage(TierIndex(level)) == 15
    ensures level == TierName(NinetyNine) ==> ArcanePowerDamage(TierIndex(level)) == 10
    ensures TierIndex(level) <= 0 ==> ArcanePowerDamage(TierIndex(level)) == 5
  {
    TierIndexOfName(0);
    TierIndexOfName(1);
    TierIndexOfName(2);
    TierIndexOfName(3);
    TierIndexOfName(4);
  }

  function BonusDamage(bonus: DamageBonus, level: string): int {
    match bonus
    case NoDamageBonus => 0
    case Flat(n) => n
    case ScalesWithLevel => ArcanePowerDamage(TierIndex(level))
  }

  datatype BonusStats = BonusStats(dam: int, hit: int, might: int, will: int, grace: int, mana: int)

  datatype BuffEffects = BuffEffects(totalDamageMultiplier: real, bonusStats: BonusStats, manaMultiplier: real)

  const NoBuffs := BuffEffects(1.0, BonusStats(0, 0, 0, 0, 0, 0), 1.0)

  /**
    One buff applied to the running totals: a present multiplier multiplies,
    the bonuses add. Adding an absent (zero) bonus changes nothing, so the
    additions need no presence test.
  */
  function ApplyBuff(e: BuffEffects, b: Buff, level: string): BuffEffects {
    var s := e.bonusStats;
    BuffEffects(
      if b.damageMultiplier != 0.0 then e.totalDamageMultiplier * b.damageMultiplier else e.totalDamageMultiplier,
      BonusStats(
        s.dam + BonusDamage(b.damageBonus, level),
        s.hit + b.hitBonus,
        s.might + b.mightBonus,
        s.will + b.willBonus,
        s.grace + b.graceBonus,
        s.mana),
      if b.manaMultiplier != 0.0 then e.manaMultiplier * b.manaMultiplier else e.manaMultiplier)
  }

  /** One selected key applied to the running totals; an unknown key is skipped. */
  function ApplyBuffKey(level: string, e: BuffEffects, key: string): BuffEffects {
    match LookupBuff(key)
    case None => e
    case Some(b) => ApplyBuff(e, BuffTable(b), level)
  }

  function BuffStep(level: string): (BuffEffects, string) -> BuffEffects {
    (e, key) => ApplyBuffKey(level, e, key)
  }

  /**
    The selected buffs' combined effect, folded in selection order. No buff
    grants mana, so the mana bonus stays 0.
  */
  function CalculateBuffEffects(selected: seq<string>, c: Character): (r: BuffEffects)
    ensures r.bonusStats.mana == 0
    ensures selected == [] ==> r == NoBuffs
  {
    BuffFoldKeepsMana(c.level, NoBuffs, selected);
    FoldLeft(BuffStep(c.level), NoBuffs, selected)
  }

  lemma {:induction false} BuffFoldKeepsMana(level: string, acc: BuffEffects, selected: seq<string>)
    ensures FoldLeft(BuffStep(level), acc, selected).bonusStats.mana == acc.bonusStats.mana
    decreases |selected|
  {
    if selected != [] {
      BuffFoldKeepsMana(level, ApplyBuffKey(level, acc, selected[0]), selected[1..]);
    }
  }

  /** Combining two effect records: multipliers multiply, bonuses add. */
  function MergeBuffs(a: BuffEffects, b: BuffEffects): BuffEffects {
    var s, t := a.bonusStats, b.bonusStats;
    BuffEffects(
      a.totalDamageMultiplier * b.totalDamageMultiplier,
      BonusStats(s.dam + t.dam, s.hit + t.hit, s.might + t.might, s.will + t.will, s.grace + t.grace, s.mana + t.mana),
      a.manaMultiplier * b.manaMultiplier)
  }

  /** What one selected key contributes on its own. */
  function BuffContribution(level: string): string -> BuffEffects {
    key => ApplyBuffKey(level, NoBuffs, key)
  }

  lemma ApplyIsMerge(level: string, e: BuffEffects, key: string)
    ensures ApplyBuffKey(level, e, key) == MergeBuffs(e, BuffContribution(level)(key))
  {
    match LookupBuff(key)
    case None =>
    case Some(b) => ApplyBuffIsMerge(e, BuffTable(b), level);
  }

  lemma ApplyBuffIsMerge(e: BuffEffects, b: Buff, level: string)
    ensures ApplyBuff(e, b, level) == MergeBuffs(e, ApplyBuff(NoBuffs, b, level))
  {
  }

  lemma MergeBuffsAssociative(a: BuffEffects, b: BuffEffects, c: BuffEffects)
    ensures MergeBuffs(MergeBuffs(a, b), c) == MergeBuffs(a, MergeBuffs(b, c))
  {
    assert a.totalDamageMultiplier * b.totalDamageMultiplier * c.totalDamageMultiplier
        == a.totalDamageMultiplier * (b.totalDamageMultiplier * c.totalDamageMultiplier);
    assert a.manaMultiplier * b.manaMultiplier * c.manaMultiplier
        == a.manaMultiplier * (b.manaMultiplier * c.manaMultiplier);
  }

  /**
    The selected buffs' combined effect is the merge of what each selected
    key contributes on its own: the total multiplier is the product of the
    present multipliers and each bonus the sum of the bonuses, counting every
    occurrence of a key.
  */
  lemma BuffsMergeContributions(selected: seq<string>, c: Character)
    ensures CalculateBuffEffects(selected, c)
         == MergeAll(MergeBuffs, NoBuffs, BuffContribution(c.level), selected)
  {
    var step := BuffStep(c.level);
    forall a, key ensures step(a, key) == MergeBuffs(a, BuffContribution(c.level)(key)) {
      ApplyIsMerge(c.level, a, key);
    }
    forall a, b, d ensures MergeBuffs(MergeBuffs(a, b), d) == MergeBuffs(a, MergeBuffs(b, d)) {
      MergeBuffsAssociative(a, b, d);
    }
    FoldIsMergeAll(step, MergeBuffs, NoBuffs, BuffContribution(c.level), NoBuffs, selected);
  }

  lemma ApplyBuffKeyCommutes(level: string, e: BuffEffects, x: string, y: string)
    ensures ApplyBuffKey(level, ApplyBuffKey(level, e, x), y) == ApplyBuffKey(level, ApplyBuffKey(level, e, y), x)
  {
    ApplyIsMerge(level, e, x);
    ApplyIsMerge(level, e, y);
    ApplyIsMerge(level, ApplyBuffKey(level, e, x), y);
    ApplyIsMerge(level, ApplyBuffKey(level, e, y), x);
    var p, q := BuffContribution(level)(x), BuffContribution(level)(y);
    MergeBuffsAssociative(e, p, q);
    MergeBuffsAssociative(e, q, p);
    assert p.totalDamageMultiplier * q.totalDamageMultiplier == q.totalDamageMultiplier * p.totalDamageMultiplier;
    assert p.manaMultiplier * q.manaMultiplier == q.manaMultiplier * p.manaMultiplier;
    assert MergeBuffs(p, q) == MergeBuffs(q, p);
  }

  /** The order in which buffs are selected does not matter. */
  lemma BuffOrderIrrelevant(xs: seq<string>, ys: seq<string>, c: Character)
    requires multiset(xs) == multiset(ys)
    ensures CalculateBuffEffects(xs, c) == CalculateBuffEffects(ys, c)
  {
    var step := BuffStep(c.level);
    forall a, x, y ensures step(step(a, x), y) == step(step(a, y), x) {
      ApplyBuffKeyCommutes(c.level, a, x, y);
    }
    FoldPermutation(step, NoBuffs, xs, ys);
  }

  /** Keys naming no buff are ignored. */
  lemma UnknownBuffsIgnored(selected: seq<string>, c: Character)
    ensures CalculateBuffEffects(selected, c) == CalculateBuffEffects(Filter(IsBuffKey, selected), c)
  {
    FoldSkipsNeutral(BuffStep(c.level), IsBuffKey, NoBuffs, selected);
  }

  /** A key selected once more is applied once more, after the others. */
  lemma RepeatedBuffAppliesAgain(selected: seq<string>, key: string, c: Character)
    ensures CalculateBuffEffects(selected + [key], c) == ApplyBuffKey(c.level, CalculateBuffEffects(selected, c), key)
  {
    FoldSnoc(BuffStep(c.level), NoBuffs, selected, key);
  }

  /**
    Buffs listed as mutually exclusive in the table are not kept apart by the
    aggregator: bless with greater blessing gives +15 hit, potence with
    greater potence +15 dam.
  */
  lemma ExclusiveBuffsStack(c: Character)
    ensures CalculateBuffEffects(["bless", "greater_blessing"], c).bonusStats.hit == 15
    ensures CalculateBuffEffects(["potence", "greater_potence"], c).bonusStats.dam == 15
  {
    assert LookupBuff("bless") == Some(Bless);
    assert LookupBuff("greater_blessing") == Some(GreaterBlessing);
    assert LookupBuff("potence") == Some(Potence);
    assert LookupBuff("greater_potence") == Some(GreaterPotence);
  }

  /** Limit breaker with empower multiplies damage by 2.4; zen mode raises mana by a tenth. */
  lemma MultipliersCompose(c: Character)
    ensures CalculateBuffEffects(["limit_breaker", "empower"], c).totalDamageMultiplier == 2.4
    ensures CalculateBuffEffects(["zen_mode"], c) == BuffEffects(1.0, BonusStats(20, 0, 0, 20, 0, 0), 1.1)
  {
    assert LookupBuff("limit_breaker") == Some(LimitBreaker);
    assert LookupBuff("empower") == Some(Empower);
    assert LookupBuff("zen_mode") == Some(ZenMode);
  }

  /** Arcane power adds the bonus of the character's level. */
  lemma ArcanePowerUsesLevel(c: Character)
    ensures CalculateBuffEffects(["arcane_power"], c).bonusStats.dam == ArcanePowerDamage(TierIndex(c.level))
  {
    assert LookupBuff("arcane_power") == Some(ArcanePower);
  }

  // -------------------------------------------------------------- debuffs

  datatype DebuffId =
    | CorrodeArmor | DissolveArmor | SleepDart
    | CorruptedArmorVex | DozeTrance
    | Scourge | AngelsBlessingDebuff

  /** The key under which a debuff is stored in the debuff table. */
  function DebuffKey(d: DebuffId): string {
    match d
    case CorrodeArmor => "corrode_armor"
    case DissolveArmor => "dissolve_armor"
    case SleepDart => "sleep_dart"
    case CorruptedArmorVex => "corrupted_armor_vex"
    case DozeTrance => "doze_trance"
    case Scourge => "scourge"
    case AngelsBlessingDebuff => "angels_blessing_debuff"
  }

  /** The debuff stored under `key`, if any; keys are compared grouped by length. */
  function LookupDebuff(key: string): (r: Option<DebuffId>)
    ensures r.Some? ==> DebuffKey(r.value) == key
  {
    match |key|
    case 7 => if key == DebuffKey(Scourge) then Some(Scourge) else None
    case 10 => if key == DebuffKey(SleepDart) then Some(SleepDart) else None
    case 11 => if key == DebuffKey(DozeTrance) then Some(DozeTrance) else None
    case 13 => if key == DebuffKey(CorrodeArmor) then Some(CorrodeArmor) else None
    case 14 => if key == DebuffKey(DissolveArmor) then Some(DissolveArmor) else None
    case 19 => if key == DebuffKey(CorruptedArmorVex) then Some(CorruptedArmorVex) else None
    case 22 => if key == DebuffKey(AngelsBlessingDebuff) then Some(AngelsBlessingDebuff) else None
    case _ => None
  }

  /** Every debuff is found under its own key. */
  lemma LookupDebuffKey(d: DebuffId)
    ensures LookupDebuff(DebuffKey(d)) == Some(d)
  {
  }

  /** A key finds nothing exactly when no debuff has it. */
  lemma LookupDebuffMissing(key: string)
    ensures LookupDebuff(key).None? <==> forall d :: DebuffKey(d) != key
  {
    forall d | DebuffKey(d) == key
      ensures LookupDebuff(key).Some?
    {
      LookupDebuffKey(d);
    }
  }

  predicate IsDebuffKey(key: string) {
    LookupDebuff(key).Some?
  }

  /**
    One debuff table entry; 0.0 and 0 stand for absent fields. The PvP and
    boss multipliers are consulted for sleep dart only.
  */
  datatype Debuff = Debuff(
    damageMultiplier: real,
    damageMultiplierPvP: real,
    damageMultiplierPvEBoss: real,
    acModifier: int,
    acModifierPvP: int,
    acPercentModifier: real)

  /** The debuff table. No entry carries a percentage AC modifier. */
  function DebuffTable(d: DebuffId): Debuff {
    match d
    case CorrodeArmor => Debuff(0.0, 0.0, 0.0, 8, 10, 0.0)
    case DissolveArmor => Debuff(0.0, 0.0, 0.0, 10, 15, 0.0)
    case SleepDart => Debuff(1.5, 1.1, 1.2, 0, 0, 0.0)
    case CorruptedArmorVex => Debuff(0.0, 0.0, 0.0, 15, 0, 0.0)
    case DozeTrance => Debuff(1.3, 0.0, 0.0, 0, 0, 0.0)
    case Scourge => Debuff(0.0, 0.0, 0.0, 35, 50, 0.0)
    case AngelsBlessingDebuff => Debuff(0.55, 0.0, 0.0, 0, 0, 0.0)
  }

  datatype DebuffEffects = DebuffEffects(totalDamageMultiplier: real, acModifier: int)

  const NoDebuffs := DebuffEffects(1.0, 0)

  /** The mode the debuffs are evaluated in: PvP exactly when the mode string is "pvp". */
  predicate IsPvP(gameMode: string) {
    gameMode == "pvp"
  }

  function Abs(n: int): nat {
    if n < 0 then -n else n
  }

  /**
    The damage multiplier a present multiplier contributes: for the entry
    stored under sleep dart's key, the PvP value in PvP, else the boss value
    against a boss, each when the entry has one; otherwise the base value.
  */
  function DebuffMultiplier(key: string, d: Debuff, isPvP: bool, isBoss: bool): real {
    if key == DebuffKey(SleepDart) then
      if isPvP && d.damageMultiplierPvP != 0.0 then d.damageMultiplierPvP
      else if isBoss && d.damageMultiplierPvEBoss != 0.0 then d.damageMultiplierPvEBoss
      else d.damageMultiplier
    else d.damageMultiplier
  }

  /**
    One debuff applied to the running totals. A present AC modifier adds its
    PvP value in PvP when the entry has one, else its base value; a present
    percentage modifier adds that share of the target's absolute AC, floored.
  */
  function ApplyDebuff(e: DebuffEffects, key: string, d: Debuff, t: Target, isPvP: bool): DebuffEffects {
    var multiplier :=
      if d.damageMultiplier != 0.0 then e.totalDamageMultiplier * DebuffMultiplier(key, d, isPvP, t.isBoss)
      else e.totalDamageMultiplier;
    var ac :=
      if d.acModifier != 0 then e.acModifier + (if isPvP && d.acModifierPvP != 0 then d.acModifierPvP else d.acModifier)
      else e.acModifier;
    var acWithPercent :=
      if d.acPercentModifier != 0.0 then ac + (Abs(t.ac) as real * d.acPercentModifier).Floor else ac;
    DebuffEffects(multiplier, acWithPercent)
  }

  /** One selected key applied to the running totals; an unknown key is skipped. */
  function ApplyDebuffKey(t: Target, gameMode: string, e: DebuffEffects, key: string): DebuffEffects {
    match LookupDebuff(key)
    case None => e
    case Some(d) => ApplyDebuff(e, key, DebuffTable(d), t, IsPvP(gameMode))
  }

  function DebuffStep(t: Target, gameMode: string): (DebuffEffects, string) -> DebuffEffects {
    (e, key) => ApplyDebuffKey(t, gameMode, e, key)
  }

  /** The selected debuffs' combined effect on the target, folded in selection order. */
  function CalculateDebuffEffects(selected: seq<string>, t: Target, gameMode: string): (r: DebuffEffects)
    ensures selected == [] ==> r == NoDebuffs
    ensures (forall key :: key in selected ==> !IsDebuffKey(key)) ==> r == NoDebuffs
  {
    UnknownDebuffsIgnored(selected, t, gameMode);
    var kept := Filter(IsDebuffKey, selected);
    FilterMembers(IsDebuffKey, selected);
    assert (forall key :: key in selected ==> !IsDebuffKey(key)) ==> kept == [] by {
      if kept != [] {
        assert kept[0] in kept;
      }
    }
    FoldLeft(DebuffStep(t, gameMode), NoDebuffs, selected)
  }

  /** Keys naming no debuff are ignored. */
  lemma UnknownDebuffsIgnored(selected: seq<string>, t: Target, gameMode: string)
    ensures FoldLeft(DebuffStep(t, gameMode), NoDebuffs, selected)
         == FoldLeft(DebuffStep(t, gameMode), NoDebuffs, Filter(IsDebuffKey, selected))
  {
    FoldSkipsNeutral(DebuffStep(t, gameMode), IsDebuffKey, NoDebuffs, selected);
  }

  function MergeDebuffs(a: DebuffEffects, b: DebuffEffects): DebuffEffects {
    DebuffEffects(a.totalDamageMultiplier * b.totalDamageMultiplier, a.acModifier + b.acModifier)
  }

  /** What one selected key contributes on its own. */
  function DebuffContribution(t: Target, gameMode: string): string -> DebuffEffects {
    key => ApplyDebuffKey(t, gameMode, NoDebuffs, key)
  }

  lemma ApplyDebuffIsMerge(t: Target, gameMode: string, e: DebuffEffects, key: string)
    ensures ApplyDebuffKey(t, gameMode, e, key) == MergeDebuffs(e, DebuffContribution(t, gameMode)(key))
  {
  }

  lemma MergeDebuffsAssociative(a: DebuffEffects, b: DebuffEffects, c: DebuffEffects)
    ensures MergeDebuffs(MergeDebuffs(a, b), c) == MergeDebuffs(a, MergeDebuffs(b, c))
  {
    assert a.totalDamageMultiplier * b.totalDamageMultiplier * c.totalDamageMultiplier
        == a.totalDamageMultiplier * (b.totalDamageMultiplier * c.totalDamageMultiplier);
  }

  /**
    The selected debuffs' combined effect is the merge of what each selected
    key contributes on its own: the AC modifier is the sum of the
    contributions and the multiplier their product.
  */
  lemma DebuffsMergeContributions(selected: seq<string>, t: Target, gameMode: string)
    ensures CalculateDebuffEffects(selected, t, gameMode)
         == MergeAll(MergeDebuffs, NoDebuffs, DebuffContribution(t, gameMode), selected)
  {
    var step := DebuffStep(t, gameMode);
    forall a, key ensures step(a, key) == MergeDebuffs(a, DebuffContribution(t, gameMode)(key)) {
      ApplyDebuffIsMerge(t, gameMode, a, key);
    }
    forall a, b, d ensures MergeDebuffs(MergeDebuffs(a, b), d) == MergeDebuffs(a, MergeDebuffs(b, d)) {
      MergeDebuffsAssociative(a, b, d);
    }
    FoldIsMergeAll(step, MergeDebuffs, NoDebuffs, DebuffContribution(t, gameMode), NoDebuffs, selected);
  }

  lemma ApplyDebuffKeyCommutes(t: Target, gameMode: string, e: DebuffEffects, x: string, y: string)
    ensures ApplyDebuffKey(t, gameMode, ApplyDebuffKey(t, gameMode, e, x), y)
         == ApplyDebuffKey(t, gameMode, ApplyDebuffKey(t, gameMode, e, y), x)
  {
    ApplyDebuffIsMerge(t, gameMode, e, x);
    ApplyDebuffIsMerge(t, gameMode, e, y);
    ApplyDebuffIsMerge(t, gameMode, ApplyDebuffKey(t, gameMode, e, x), y);
    ApplyDebuffIsMerge(t, gameMode, ApplyDebuffKey(t, gameMode, e, y), x);
    var p, q := DebuffContribution(t, gameMode)(x), DebuffContribution(t, gameMode)(y);
    MergeDebuffsAssociative(e, p, q);
    MergeDebuffsAssociative(e, q, p);
    assert p.totalDamageMultiplier * q.totalDamageMultiplier == q.totalDamageMultiplier * p.totalDamageMultiplier;
    assert MergeDebuffs(p, q) == MergeDebuffs(q, p);
  }

  /** The order in which debuffs are selected does not matter. */
  lemma DebuffOrderIrrelevant(xs: seq<string>, ys: seq<string>, t: Target, gameMode: string)
    requires multiset(xs) == multiset(ys)
    ensures CalculateDebuffEffects(xs, t, gameMode) == CalculateDebuffEffects(ys, t, gameMode)
  {
    var step := DebuffStep(t, gameMode);
    forall a, x, y ensures step(step(a, x), y) == step(step(a, y), x) {
      ApplyDebuffKeyCommutes(t, gameMode, a, x, y);
    }
    FoldPermutation(step, NoDebuffs, xs, ys);
  }

  /**
    Sleep dart multiplies by 1.1 in PvP, by 1.2 against a boss outside PvP,
    and by 1.5 otherwise; it does not touch the AC modifier.
  */
  lemma SleepDartVariants(t: Target, gameMode: string)
    ensures CalculateDebuffEffects(["sleep_dart"], t, gameMode)
         == DebuffEffects(if IsPvP(gameMode) then 1.1 else if t.isBoss then 1.2 else 1.5, 0)
  {
    assert LookupDebuff("sleep_dart") == Some(SleepDart);
  }

  /** The other multipliers ignore both the mode and whether the target is a boss. */
  lemma OnlySleepDartVaries(d: DebuffId, t: Target, gameMode: string)
    requires d != SleepDart
    ensures DebuffContribution(t, gameMode)(DebuffKey(d)).totalDamageMultiplier
         == DebuffContribution(Target(0, 0, 0, false), "pve")(DebuffKey(d)).totalDamageMultiplier
  {
    LookupDebuffKey(d);
  }

  /** The AC debuffs use their PvP value in PvP mode: scourge adds 50 there and 35 elsewhere. */
  lemma AcDebuffsByMode(t: Target, gameMode: string)
    ensures CalculateDebuffEffects(["scourge"], t, gameMode) == DebuffEffects(1.0, if IsPvP(gameMode) then 50 else 35)
    ensures CalculateDebuffEffects(["corrode_armor"], t, gameMode) == DebuffEffects(1.0, if IsPvP(gameMode) then 10 else 8)
    ensures CalculateDebuffEffects(["dissolve_armor"], t, gameMode) == DebuffEffects(1.0, if IsPvP(gameMode) then 15 else 10)
    ensures CalculateDebuffEffects(["corrupted_armor_vex"], t, gameMode) == DebuffEffects(1.0, 15)
  {
    assert LookupDebuff("scourge") == Some(Scourge);
    assert LookupDebuff("corrode_armor") == Some(CorrodeArmor);
    assert LookupDebuff("dissolve_armor") == Some(DissolveArmor);
    assert LookupDebuff("corrupted_armor_vex") == Some(CorruptedArmorVex);
  }

  /**
    Debuffs listed as mutually exclusive in the table are not kept apart by
    the aggregator: corrode armor with dissolve armor adds 18 outside PvP.
  */
  lemma ExclusiveDebuffsStack(t: Target)
    ensures CalculateDebuffEffects(["corrode_armor", "dissolve_armor"], t, "pve").acModifier == 18
  {
    assert LookupDebuff("corrode_armor") == Some(CorrodeArmor);
    assert LookupDebuff("dissolve_armor") == Some(DissolveArmor);
  }
}

=== FILE: folds.dfy ===
/**
  Left folds over sequences: the shape of a JavaScript `forEach` that
  updates an accumulator element by element, first to last.
*/
module Folds {

  /** `step` applied to `acc` and each element of `xs` in turn. */
  function FoldLeft<A, X>(step: (A, X) -> A, acc: A, xs: seq<X>): A
    decreases |xs|
  {
    if xs == [] then acc else FoldLeft(step, step(acc, xs[0]), xs[1..])
  }

  /** Two elements can be applied in either order. */
  ghost predicate Commutes<A(!new), X(!new)>(step: (A, X) -> A) {
    forall a: A, x: X, y: X {:trigger step(step(a, x), y)} :: step(step(a, x), y) == step(step(a, y), x)
  }

  /** The elements of `xs` that satisfy `keep`, in their original order. */
  function Filter<X>(keep: X -> bool, xs: seq<X>): seq<X>
    decreases |xs|
  {
    if xs == [] then []
    else if keep(xs[0]) then [xs[0]] + Filter(keep, xs[1..])
    else Filter(keep, xs[1..])
  }

  /** Filtering keeps exactly the elements that pass, and never lengthens. */
  lemma {:induction false} FilterMembers<X(!new)>(keep: X -> bool, xs: seq<X>)
    ensures |Filter(keep, xs)| <= |xs|
    ensures forall x :: x in Filter(keep, xs) <==> x in xs && keep(x)
    decreases |xs|
  {
    if xs != [] {
      FilterMembers(keep, xs[1..]);
      assert xs == [xs[0]] + xs[1..];
    }
  }

  /** Filtering a concatenation filters each part. */
  lemma {:induction false} FilterAppend<X>(keep: X -> bool, xs: seq<X>, ys: seq<X>)
    ensures Filter(keep, xs + ys) == Filter(keep, xs) + Filter(keep, ys)
    decreases |xs|
  {
    if xs == [] {
      assert xs + ys == ys;
    } else {
      assert (xs + ys)[0] == xs[0];
      assert (xs + ys)[1..] == xs[1..] + ys;
      FilterAppend(keep, xs[1..], ys);
    }
  }

  /** Filtering keeps a sequence whose every element passes. */
  lemma {:induction false} FilterKeepsAll<X(!new)>(keep: X -> bool, xs: seq<X>)
    requires forall x :: x in xs ==> keep(x)
    ensures Filter(keep, xs) == xs
    decreases |xs|
  {
    if xs != [] {
      assert forall x :: x in xs[1..] ==> x in xs;
      FilterKeepsAll(keep, xs[1..]);
      assert xs == [xs[0]] + xs[1..];
    }
  }

  /** Folding a concatenation folds the first part, then the second from there. */
  lemma {:induction false} FoldAppend<A, X>(step: (A, X) -> A, acc: A, xs: seq<X>, ys: seq<X>)
    ensures FoldLeft(step, acc, xs + ys) == FoldLeft(step, FoldLeft(step, acc, xs), ys)
    decreases |xs|
  {
    if xs == [] {
      assert xs + ys == ys;
    } else {
      assert (xs + ys)[1..] == xs[1..] + ys;
      FoldAppend(step, step(acc, xs[0]), xs[1..], ys);
    }
  }

  /** An element appended last is applied last, once per occurrence. */
  lemma FoldSnoc<A, X>(step: (A, X) -> A, acc: A, xs: seq<X>, x: X)
    ensures FoldLeft(step, acc, xs + [x]) == step(FoldLeft(step, acc, xs), x)
  {
    FoldAppend(step, acc, xs, [x]);
  }

  /** With a commuting step, an element in the middle may be applied first instead. */
  lemma {:induction false} FoldPull<A(!new), X(!new)>(step: (A, X) -> A, acc: A, us: seq<X>, x: X, vs: seq<X>)
    requires Commutes(step)
    ensures FoldLeft(step, acc, us + [x] + vs) == FoldLeft(step, step(acc, x), us + vs)
    decreases |us|
  {
    if us == [] {
      assert us + [x] + vs == [x] + vs;
      assert ([x] + vs)[1..] == vs;
      assert us + vs == vs;
    } else {
      var u := us[0];
      assert (us + [x] + vs)[1..] == us[1..] + [x] + vs;
      FoldPull(step, step(acc, u), us[1..], x, vs);
      assert step(step(acc, u), x) == step(step(acc, x), u);
      assert (us + vs)[0] == u;
      assert (us + vs)[1..] == us[1..] + vs;
    }
  }

  /** With a commuting step the order of the elements does not matter. */
  lemma {:induction false} FoldPermutation<A(!new), X(!new)>(step: (A, X) -> A, acc: A, xs: seq<X>, ys: seq<X>)
    requires Commutes(step)
    requires multiset(xs) == multiset(ys)
    ensures FoldLeft(step, acc, xs) == FoldLeft(step, acc, ys)
    decreases |xs|
  {
    if xs != [] {
      var x := xs[0];
      assert x in multiset(ys);
      var k :| 0 <= k < |ys| && ys[k] == x;
      var us, vs := ys[..k], ys[k + 1..];
      assert ys == us + [x] + vs;
      FoldPull(step, acc, us, x, vs);
      assert xs == [x] + xs[1..];
      assert multiset(ys) == multiset(us + [x] + vs) == multiset(us) + multiset{x} + multiset(vs);
      assert multiset(us + vs) == multiset(us) + multiset(vs);
      assert multiset(xs) == multiset{x} + multiset(xs[1..]);
      assert multiset(xs[1..]) == multiset(xs) - multiset{x};
      assert multiset(us) + multiset{x} + multiset(vs) - multiset{x} == multiset(us) + multiset(vs);
      assert multiset(xs[1..]) == multiset(us + vs);
      FoldPermutation(step, step(acc, x), xs[1..], us + vs);
    } else {
      assert |ys| == |multiset(ys)| == 0;
    }
  }

  /** Elements that leave every accumulator unchanged can be dropped before folding. */
  lemma {:induction false} FoldSkipsNeutral<A(!new), X(!new)>(step: (A, X) -> A, keep: X -> bool, acc: A, xs: seq<X>)
    requires forall a: A, x: X {:trigger step(a, x)} :: x in xs && !keep(x) ==> step(a, x) == a
    ensures FoldLeft(step, acc, xs) == FoldLeft(step, acc, Filter(keep, xs))
    decreases |xs|
  {
    if xs != [] {
      assert forall x :: x in xs[1..] ==> x in xs;
      FoldSkipsNeutral(step, keep, step(acc, xs[0]), xs[1..]);
      if !keep(xs[0]) {
        FoldSkipsNeutral(step, keep, acc, xs[1..]);
      } else {
        var f := Filter(keep, xs);
        assert f == [xs[0]] + Filter(keep, xs[1..]);
        assert f[1..] == Filter(keep, xs[1..]);
      }
    }
  }

  /** The first `n` lists of `xss`, concatenated in order. */
  function Concat<X>(xss: seq<seq<X>>, n: nat): seq<X>
    requires n <= |xss|
  {
    if n == 0 then [] else Concat(xss, n - 1) + xss[n - 1]
  }

  /**
    A fold whose step merges each element's contribution into the accumulator
    with an associative operation equals the accumulator merged with the
    right-nested merge of the contributions.
  */
  function MergeAll<A, X>(merge: (A, A) -> A, unit: A, part: X -> A, xs: seq<X>): A
    decreases |xs|
  {
    if xs == [] then unit else merge(part(xs[0]), MergeAll(merge, unit, part, xs[1..]))
  }

  lemma {:induction false} FoldIsMergeAll<A(!new), X(!new)>(step: (A, X) -> A, merge: (A, A) -> A, unit: A, part: X -> A, acc: A, xs: seq<X>)
    requires forall a: A, x: X {:trigger step(a, x)} :: step(a, x) == merge(a, part(x))
    requires forall a: A, b: A, c: A {:trigger merge(merge(a, b), c)} :: merge(merge(a, b), c) == merge(a, merge(b, c))
    requires forall a: A {:trigger merge(a, unit)} :: merge(a, unit) == a
    ensures FoldLeft(step, acc, xs) == merge(acc, MergeAll(merge, unit, part, xs))
    decreases |xs|
  {
    if xs != [] {
      FoldIsMergeAll(step, merge, unit, part, step(acc, xs[0]), xs[1..]);
      assert merge(merge(acc, part(xs[0])), MergeAll(merge, unit, part, xs[1..]))
          == merge(acc, merge(part(xs[0]), MergeAll(merge, unit, part, xs[1..])));
    }
  }
}

=== FILE: spells.dfy ===
/**
  The spell formula table. Every spell computes its damage in closed form from
  the character's stats and, for one spell, the target's stats. A formula
  returns either a single floored number or one of three fixed-shape
  breakdowns; the number 0 is reserved for "formula unknown".

  Coefficients are exact rationals and `.Floor` is the mathematical floor, as
  `Math.floor` is; the model does not reproduce double-precision rounding of
  the coefficients. `IntegerFormula` restates every formula with integer
  division only, and `FormulaIsExact` proves the two agree on all inputs.
*/
module Spells {
  import opened Wrappers
  import opened Tiers
  import opened Stats

  datatype SpellId =
    // warrior
    | DragonsFist | DevastatingBlow | Berserk | Whirlwind | BattleStorm
    | Assault | DragonsConvulsion | Siege
    // rogue
    | DaggerToss | DesperateAttack | LethalStrike | Bladestorm | FocusedBlow
    | BombBarrage | BladeDancer | Ignite
    // mage
    | Blizzard | Phoenix | PoisonCloud | Hellfire | PillarOfFlames | Volcano
    | Inferno | DoomsFire | FireBreath | Twister
    // poet
    | Retribution | CrashingWake | Spark | Tornado | HealingRain | ZenMode

  /** A formula's result: a number, or one of the three breakdown shapes. */
  datatype Damage =
    | Scalar(amount: int)
    | OverTime(initial: int, perTick: int, totalTicks: int, grandTotal: int)
    | MultiTarget(perHit: int, totalHits: int)
    | DoubleHit(firstHit: int, secondHit: int, totalBothHits: int)

  /** The "formula unknown" result. */
  const Unknown: Damage := Scalar(0)

  /** Every number a damage value carries is at least zero. */
  predicate NonNegative(d: Damage) {
    match d
    case Scalar(a) => a >= 0
    case OverTime(i, p, t, g) => i >= 0 && p >= 0 && t >= 0 && g >= 0
    case MultiTarget(p, t) => p >= 0 && t >= 0
    case DoubleHit(f, s, t) => f >= 0 && s >= 0 && t >= 0
  }

  /** The spells whose formula is unknown: their damage is the constant 0. */
  predicate IsUnknownFormula(s: SpellId) {
    s in {BladeDancer, CrashingWake, Spark, Tornado, HealingRain, ZenMode}
  }

  /**
    `SPELLS[s].calculateDamage(stats, target)`. Each `.Floor` sits where the
    formula floors; intermediate values that are not floored stay exact.
  */
  function Formula(s: SpellId, c: Character, t: Target): (d: Damage)
    ensures d.OverTime? <==> s == Hellfire
    ensures d.MultiTarget? <==> s == PillarOfFlames
    ensures d.DoubleHit? <==> s == DoomsFire
  {
    var vita, mana := c.vita as real, c.mana as real;
    match s
    case DragonsFist => Scalar((0.25 * vita + 500.0).Floor)
    case DevastatingBlow => Scalar((0.15 * vita).Floor)
    case Berserk => Scalar((1.25 * vita).Floor)
    case Whirlwind => Scalar((1.575 * vita).Floor)
    case BattleStorm => Scalar((1.5 * vita).Floor)
    case Assault => Scalar((1.75 * vita).Floor)
    case DragonsConvulsion =>
      var perTick := 0.25 * mana + 0.075 * vita;
      Scalar((perTick * 12.0).Floor)
    case Siege => Scalar((1.875 * vita + 0.5 * mana).Floor)
    case DaggerToss => Scalar((0.25 * mana + (10 * c.grace) as real + 250.0).Floor)
    case DesperateAttack => Scalar((1.5 * vita + 1.5 * mana).Floor)
    case LethalStrike => Scalar((0.5 * vita + (3 * c.mana) as real).Floor)
    case Bladestorm => BladestormDamage(c)
    case FocusedBlow => Scalar((2.5 * vita).Floor)
    case BombBarrage => Scalar((0.145 * t.vita as real + 0.295 * t.mana as real).Floor)
    case BladeDancer => Unknown
    case Ignite => Scalar(50)
    case Blizzard => BlizzardDamage(c)
    case Phoenix => Scalar((1.5 * mana).Floor)
    case PoisonCloud => PoisonCloudDamage(c)
    case Hellfire => HellfireDamage(c)
    case PillarOfFlames =>
      var perHit := (0.625 * mana).Floor;
      MultiTarget(perHit, perHit * 8)
    case Volcano => VolcanoDamage(c)
    case Inferno => InfernoDamage(c)
    case DoomsFire => DoomsFireDamage(c)
    case FireBreath => Scalar((2.55 * mana).Floor)
    case Twister => Scalar((0.35 * mana).Floor)
    case Retribution => RetributionDamage(c)
    case CrashingWake => Unknown
    case Spark => Unknown
    case Tornado => Unknown
    case HealingRain => Unknown
    case ZenMode => Unknown
  }

  // The formulas that take more than one step, one function each.

  /** `x` scaled by the percentage `pct`: a stat divided by 100 used as a multiplier. */
  function Percent(x: real, pct: int): real {
    x * (pct as real / 100.0)
  }

  /** `(base + rate * dam) * mana`, unfloored: the dam-scaled mana product of the fire spells. */
  function DamScaledMana(c: Character, base: real, rate: real): real {
    (base + rate * c.dam as real) * c.mana as real
  }

  function BladestormDamage(c: Character): Damage {
    var vitaPart := 2.5 * c.vita as real;
    var manaPart := 9.15 * c.mana as real * 0.8;
    Scalar(Percent(vitaPart + manaPart, c.grace).Floor)
  }

  /** The blizzard/combust/electrocute zap, whose constant depends on the level string. */
  function BlizzardDamage(c: Character): Damage {
    var mana := c.mana as real;
    if c.level == TierName(SamSan) then Scalar((20099.0 + 0.19 * mana).Floor)
    else if c.level == TierName(EeSan) then Scalar((16099.0 + 0.175 * mana).Floor)
    else if c.level == TierName(IlSan) then Scalar((12099.0 + 0.15 * mana).Floor)
    else if c.level == TierName(NinetyNine) || c.level == TierName(Below99) then
      Scalar((8990.0 + 0.1 * mana).Floor)
    else
      Scalar((8990.0 + 0.1 * mana).Floor)
  }

  function PoisonCloudDamage(c: Character): Damage {
    Scalar(Percent(0.125 * c.mana as real, c.will).Floor)
  }

  /** An initial hit and ten ticks of a quarter of it. */
  function HellfireDamage(c: Character): Damage {
    var initial := DamScaledMana(c, 4.0, 0.04).Floor;
    var tickDamage := (0.25 * initial as real).Floor;
    var totalTicks := tickDamage * 10;
    OverTime(initial, tickDamage, totalTicks, initial + totalTicks)
  }

  /** Two hits, the second half the first, reported as their sum. */
  function VolcanoDamage(c: Character): Damage {
    var firstHit := DamScaledMana(c, 1.625, 0.1625).Floor;
    var secondHit := (firstHit as real * 0.5).Floor;
    Scalar(firstHit + secondHit)
  }

  function InfernoDamage(c: Character): Damage {
    Scalar(DamScaledMana(c, 3.0, 0.03).Floor)
  }

  /** Two hits, the second half the first, reported separately. */
  function DoomsFireDamage(c: Character): Damage {
    var firstHit := DamScaledMana(c, 8.0, 0.08).Floor;
    var secondHit := (firstHit as real * 0.5).Floor;
    DoubleHit(firstHit, secondHit, firstHit + secondHit)
  }

  /** An initial hit plus six ticks of a quarter of it, reported as their sum. */
  function RetributionDamage(c: Character): Damage {
    var initial := (0.34 * c.mana as real).Floor;
    var ticks := (0.25 * initial as real * 6.0).Floor;
    Scalar(initial + ticks)
  }

  /**
    Every formula written with integer arithmetic alone: each coefficient is
    an exact fraction, and flooring a fraction with a positive denominator is
    integer division.
  */
  function IntegerFormula(s: SpellId, c: Character, t: Target): Damage {
    var vita, mana := c.vita, c.mana;
    match s
    case DragonsFist => Scalar((vita + 2000) / 4)
    case DevastatingBlow => Scalar(3 * vita / 20)
    case Berserk => Scalar(5 * vita / 4)
    case Whirlwind => Scalar(63 * vita / 40)
    case BattleStorm => Scalar(3 * vita / 2)
    case Assault => Scalar(7 * vita / 4)
    case DragonsConvulsion => Scalar((30 * mana + 9 * vita) / 10)
    case Siege => Scalar((15 * vita + 4 * mana) / 8)
    case DaggerToss => Scalar((mana + 40 * c.grace + 1000) / 4)
    case DesperateAttack => Scalar(3 * (vita + mana) / 2)
    case LethalStrike => Scalar((vita + 6 * mana) / 2)
    case Bladestorm => IntegerBladestorm(c)
    case FocusedBlow => Scalar(5 * vita / 2)
    case BombBarrage => Scalar((29 * t.vita + 59 * t.mana) / 200)
    case BladeDancer => Scalar(0)
    case Ignite => Scalar(50)
    case Blizzard => IntegerBlizzard(c)
    case Phoenix => Scalar(3 * mana / 2)
    case PoisonCloud => IntegerPoisonCloud(c)
    case Hellfire => IntegerHellfire(c)
    case PillarOfFlames => MultiTarget(5 * mana / 8, 8 * (5 * mana / 8))
    case Volcano => IntegerVolcano(c)
    case Inferno => IntegerInferno(c)
    case DoomsFire => IntegerDoomsFire(c)
    case FireBreath => Scalar(51 * mana / 20)
    case Twister => Scalar(7 * mana / 20)
    case Retribution => IntegerRetribution(c)
    case CrashingWake => Scalar(0)
    case Spark => Scalar(0)
    case Tornado => Scalar(0)
    case HealingRain => Scalar(0)
    case ZenMode => Scalar(0)
  }

  // The integer restatements that multiply two stats, one function each.

  function IntegerBladestorm(c: Character): Damage {
    Scalar((250 * c.vita + 732 * c.mana) * c.grace / 10000)
  }

  function IntegerPoisonCloud(c: Character): Damage {
    Scalar(c.mana * c.will / 800)
  }

  function IntegerBlizzard(c: Character): Damage {
    if c.level == TierName(SamSan) then Scalar(20099 + 19 * c.mana / 100)
    else if c.level == TierName(EeSan) then Scalar(16099 + 7 * c.mana / 40)
    else if c.level == TierName(IlSan) then Scalar(12099 + 3 * c.mana / 20)
    else Scalar(8990 + c.mana / 10)
  }

  /** `scale * (offset + dam) * mana / den`: the dam-scaled mana product as an integer quotient. */
  function IntegerDamScaledMana(c: Character, scale: int, offset: int, den: int): int
    requires den > 0
  {
    scale * (offset + c.dam) * c.mana / den
  }

  function IntegerHellfire(c: Character): Damage {
    var initial := IntegerDamScaledMana(c, 1, 100, 25);
    OverTime(initial, initial / 4, 10 * (initial / 4), initial + 10 * (initial / 4))
  }

  function IntegerVolcano(c: Character): Damage {
    var firstHit := IntegerDamScaledMana(c, 13, 10, 80);
    Scalar(firstHit + firstHit / 2)
  }

  function IntegerInferno(c: Character): Damage {
    Scalar(IntegerDamScaledMana(c, 3, 100, 100))
  }

  function IntegerDoomsFire(c: Character): Damage {
    var firstHit := IntegerDamScaledMana(c, 2, 100, 25);
    DoubleHit(firstHit, firstHit / 2, firstHit + firstHit / 2)
  }

  function IntegerRetribution(c: Character): Damage {
    var initial := 17 * c.mana / 50;
    Scalar(initial + 3 * initial / 2)
  }

  /** The exact-rational formulas and their integer restatements agree on every input. */
  lemma FormulaIsExact(s: SpellId, c: Character, t: Target)
    ensures Formula(s, c, t) == IntegerFormula(s, c, t)
  {
    if s in WarriorSpells {
      WarriorFormulasExact(s, c, t);
    } else if s in RogueSpells {
      RogueFormulasExact(s, c, t);
    } else if s in MageSpells {
      MageFormulasExact(s, c, t);
    } else {
      PoetFormulasExact(s, c, t);
    }
  }

  const WarriorSpells: set<SpellId> :=
    {DragonsFist, DevastatingBlow, Berserk, Whirlwind, BattleStorm, Assault, DragonsConvulsion, Siege}
  const RogueSpells: set<SpellId> :=
    {DaggerToss, DesperateAttack, LethalStrike, Bladestorm, FocusedBlow, BombBarrage, BladeDancer, Ignite}
  const MageSpells: set<SpellId> :=
    {Blizzard, Phoenix, PoisonCloud, Hellfire, PillarOfFlames, Volcano, Inferno, DoomsFire, FireBreath, Twister}

  lemma WarriorFormulasExact(s: SpellId, c: Character, t: Target)
    requires s in WarriorSpells
    ensures Formula(s, c, t) == IntegerFormula(s, c, t)
  {
    var vita, mana := c.vita as real, c.mana as real;
    match s
    case DragonsFist => FloorOfQuotient(c.vita + 2000, 4);
    case DevastatingBlow => FloorOfQuotient(3 * c.vita, 20);
    case Berserk => FloorOfQuotient(5 * c.vita, 4);
    case Whirlwind => FloorOfQuotient(63 * c.vita, 40);
    case BattleStorm => FloorOfQuotient(3 * c.vita, 2);
    case Assault => FloorOfQuotient(7 * c.vita, 4);
    case DragonsConvulsion =>
      assert (0.25 * mana + 0.075 * vita) * 12.0 == (30 * c.mana + 9 * c.vita) as real / 10.0;
      FloorOfQuotient(30 * c.mana + 9 * c.vita, 10);
    case Siege => FloorOfQuotient(15 * c.vita + 4 * c.mana, 8);
  }

  lemma RogueFormulasExact(s: SpellId, c: Character, t: Target)
    requires s in RogueSpells
    ensures Formula(s, c, t) == IntegerFormula(s, c, t)
  {
    match s
    case DaggerToss => FloorOfQuotient(c.mana + 40 * c.grace + 1000, 4);
    case DesperateAttack => FloorOfQuotient(3 * (c.vita + c.mana), 2);
    case LethalStrike => FloorOfQuotient(c.vita + 6 * c.mana, 2);
    case Bladestorm => BladestormExact(c);
    case FocusedBlow => FloorOfQuotient(5 * c.vita, 2);
    case BombBarrage => FloorOfQuotient(29 * t.vita + 59 * t.mana, 200);
    case BladeDancer =>
    case Ignite =>
  }

  lemma MageFormulasExact(s: SpellId, c: Character, t: Target)
    requires s in MageSpells
    ensures Formula(s, c, t) == IntegerFormula(s, c, t)
  {
    if s in {Hellfire, PillarOfFlames, Volcano, DoomsFire} {
      MageMultiHitFormulasExact(s, c, t);
    } else {
      MageSingleHitFormulasExact(s, c, t);
    }
  }

  lemma MageSingleHitFormulasExact(s: SpellId, c: Character, t: Target)
    requires s in {Blizzard, Phoenix, PoisonCloud, Inferno, FireBreath, Twister}
    ensures Formula(s, c, t) == IntegerFormula(s, c, t)
  {
    match s
    case Blizzard => BlizzardFormulaExact(c, t);
    case Phoenix => FloorOfQuotient(3 * c.mana, 2);
    case PoisonCloud => PoisonCloudExact(c);
    case Inferno => DamScaledManaFloor(c, 3.0, 0.03, 100, 3, 100);
    case FireBreath => FloorOfQuotient(51 * c.mana, 20);
    case Twister => FloorOfQuotient(7 * c.mana, 20);
  }

  lemma BlizzardFormulaExact(c: Character, t: Target)
    ensures Formula(Blizzard, c, t) == IntegerFormula(Blizzard, c, t)
  {
    BlizzardExact(c);
  }

  lemma BlizzardExact(c: Character)
    ensures BlizzardDamage(c) == IntegerBlizzard(c)
  {
    OffsetFloor(20099, 0.19, 19, 100, c.mana);
    OffsetFloor(16099, 0.175, 7, 40, c.mana);
    OffsetFloor(12099, 0.15, 3, 20, c.mana);
    OffsetFloor(8990, 0.1, 1, 10, c.mana);
  }

  /** An integer base plus `num / den` of mana, floored, is the base plus the integer quotient. */
  lemma OffsetFloor(base: int, rate: real, num: int, den: int, mana: int)
    requires den > 0 && rate == num as real / den as real
    ensures (base as real + rate * mana as real).Floor == base + num * mana / den
  {
    assert rate * mana as real == (num * mana) as real / den as real;
    FloorOfQuotient(num * mana, den);
  }

  lemma MageMultiHitFormulasExact(s: SpellId, c: Character, t: Target)
    requires s in {Hellfire, PillarOfFlames, Volcano, DoomsFire}
    ensures Formula(s, c, t) == IntegerFormula(s, c, t)
  {
    match s
    case Hellfire => HellfireFormulaExact(c, t);
    case PillarOfFlames => PillarOfFlamesFormulaExact(c, t);
    case Volcano => VolcanoFormulaExact(c, t);
    case DoomsFire => DoomsFireFormulaExact(c, t);
  }

  lemma PillarOfFlamesFormulaExact(c: Character, t: Target)
    ensures Formula(PillarOfFlames, c, t) == IntegerFormula(PillarOfFlames, c, t)
  {
    FloorOfQuotient(5 * c.mana, 8);
  }

  lemma HellfireFormulaExact(c: Character, t: Target)
    ensures Formula(Hellfire, c, t) == IntegerFormula(Hellfire, c, t)
  {
    HellfireExact(c);
  }

  lemma HellfireExact(c: Character)
    ensures HellfireDamage(c) == IntegerHellfire(c)
  {
    DamScaledManaFloor(c, 4.0, 0.04, 100, 1, 25);
    QuarterFloor(IntegerDamScaledMana(c, 1, 100, 25));
  }

  lemma VolcanoFormulaExact(c: Character, t: Target)
    ensures Formula(Volcano, c, t) == IntegerFormula(Volcano, c, t)
  {
    VolcanoExact(c);
  }

  lemma VolcanoExact(c: Character)
    ensures VolcanoDamage(c) == IntegerVolcano(c)
  {
    DamScaledManaFloor(c, 1.625, 0.1625, 10, 13, 80);
    HalfFloor(IntegerDamScaledMana(c, 13, 10, 80));
  }

  lemma DoomsFireFormulaExact(c: Character, t: Target)
    ensures Formula(DoomsFire, c, t) == IntegerFormula(DoomsFire, c, t)
  {
    DoomsFireExact(c);
  }

  lemma DoomsFireExact(c: Character)
    ensures DoomsFireDamage(c) == IntegerDoomsFire(c)
  {
    DamScaledManaFloor(c, 8.0, 0.08, 100, 2, 25);
    HalfFloor(IntegerDamScaledMana(c, 2, 100, 25));
  }

  /**
    The dam-scaled mana formulas: `(base + rate * dam) * mana`, floored, where
    `base + rate * dam == scale * (offset + dam) / den`.
  */
  lemma DamScaledManaFloor(c: Character, base: real, rate: real, offset: int, scale: int, den: int)
    requires den > 0
    requires base == (scale * offset) as real / den as real
    requires rate == scale as real / den as real
    ensures DamScaledMana(c, base, rate).Floor == IntegerDamScaledMana(c, scale, offset, den)
  {
    var p := scale * (offset + c.dam) * c.mana;
    assert (p as real) == (scale as real) * ((offset + c.dam) as real) * (c.mana as real);
    assert DamScaledMana(c, base, rate) == p as real / den as real;
    FloorOfQuotient(p, den);
  }

  /** A percentage of `p / den`, floored, is `p * pct` over `100 * den`. */
  lemma PercentFloor(p: int, den: int, pct: int)
    requires den > 0
    ensures Percent(p as real / den as real, pct).Floor == p * pct / (100 * den)
  {
    assert Percent(p as real / den as real, pct) == (p * pct) as real / (100 * den) as real;
    FloorOfQuotient(p * pct, 100 * den);
  }

  lemma BladestormExact(c: Character)
    ensures BladestormDamage(c) == IntegerBladestorm(c)
  {
    var p := 250 * c.vita + 732 * c.mana;
    assert 2.5 * c.vita as real + 9.15 * c.mana as real * 0.8 == p as real / 100.0;
    PercentFloor(p, 100, c.grace);
  }

  lemma PoisonCloudExact(c: Character)
    ensures PoisonCloudDamage(c) == IntegerPoisonCloud(c)
  {
    assert 0.125 * c.mana as real == c.mana as real / 8.0;
    PercentFloor(c.mana, 8, c.will);
  }

  lemma RetributionExact(c: Character)
    ensures RetributionDamage(c) == IntegerRetribution(c)
  {
    assert 0.34 * c.mana as real == (17 * c.mana) as real / 50.0;
    FloorOfQuotient(17 * c.mana, 50);
    var initial := 17 * c.mana / 50;
    assert 0.25 * initial as real * 6.0 == (3 * initial) as real / 2.0;
    FloorOfQuotient(3 * initial, 2);
  }

  lemma QuarterFloor(n: int)
    ensures (0.25 * n as real).Floor == n / 4
  {
    FloorOfQuotient(n, 4);
  }

  lemma HalfFloor(n: int)
    ensures (n as real * 0.5).Floor == n / 2
  {
    FloorOfQuotient(n, 2);
  }

  lemma PoetFormulasExact(s: SpellId, c: Character, t: Target)
    requires !(s in WarriorSpells || s in RogueSpells || s in MageSpells)
    ensures Formula(s, c, t) == IntegerFormula(s, c, t)
  {
    if s == Retribution {
      RetributionExact(c);
    }
  }

  /** Flooring a quotient of integers by a positive denominator is integer division. */
  lemma FloorOfQuotient(n: int, d: int)
    requires d > 0
    ensures ((n as real) / (d as real)).Floor == n / d
  {
    var q, r := n / d, n % d;
    var x := (n as real) / (d as real);
    var y := (q as real) + (r as real) / (d as real);
    assert 0.0 <= (r as real) / (d as real) < 1.0;
    assert y * (d as real) == (q as real) * (d as real) + (r as real);
    assert (q * d) as real == (q as real) * (d as real);
    assert x == y;
  }

  /** The level strings the blizzard formula tests, by their index in `LevelTiers`. */
  lemma BlizzardTierDispatch(level: string)
    ensures level == TierName(SamSan) <==> TierIndex(level) == 4
    ensures level == TierName(EeSan) <==> TierIndex(level) == 3
    ensures level == TierName(IlSan) <==> TierIndex(level) == 2
  {
    TierIndexOfName(4);
    TierIndexOfName(3);
    TierIndexOfName(2);
  }

  /** The internal arithmetic every breakdown shape promises. */
  predicate Consistent(d: Damage) {
    match d
    case Scalar(_) => true
    case OverTime(initial, perTick, totalTicks, grandTotal) =>
      perTick == initial / 4 && totalTicks == 10 * perTick && grandTotal == initial + totalTicks
    case MultiTarget(perHit, totalHits) => totalHits == 8 * perHit
    case DoubleHit(firstHit, secondHit, totalBothHits) =>
      secondHit == firstHit / 2 && totalBothHits == firstHit + secondHit
  }

  /**
    Every breakdown a formula returns is internally consistent: hellfire's tick
    is a quarter of the initial hit, floored, over ten ticks; pillar of flames
    hits eight targets; doom's fire's second hit is half the first, floored.
  */
  lemma BreakdownsConsistent(s: SpellId, c: Character, t: Target)
    ensures Consistent(Formula(s, c, t))
  {
    match s
    case Hellfire => HellfireExact(c);
    case DoomsFire => DoomsFireExact(c);
    case _ =>
  }

  /** With non-negative stats doom's fire's second hit never exceeds its first. */
  lemma DoomsFireSecondHitSmaller(c: Character, t: Target)
    requires NonNegativeCharacter(c)
    ensures var d := Formula(DoomsFire, c, t);
      0 <= d.secondHit <= d.firstHit && d.totalBothHits <= 2 * d.firstHit
  {
    DoomsFireExact(c);
    DamScaledManaNonNegative(c, 2, 100, 25);
  }

  /** Volcano hits twice but returns a plain number: the first hit plus half of it, floored. */
  lemma VolcanoIsScalar(c: Character, t: Target)
    ensures var firstHit := 13 * (10 + c.dam) * c.mana / 80;
      Formula(Volcano, c, t) == Scalar(firstHit + firstHit / 2)
  {
    VolcanoExact(c);
    var firstHit := 13 * (10 + c.dam) * c.mana / 80;
    assert IntegerDamScaledMana(c, 13, 10, 80) == firstHit;
    assert IntegerVolcano(c) == Scalar(firstHit + firstHit / 2);
  }

  /** Retribution's initial hit and six quarter-ticks are returned as one number. */
  lemma RetributionIsScalar(c: Character, t: Target)
    ensures var initial := 17 * c.mana / 50;
      Formula(Retribution, c, t) == Scalar(initial + 3 * initial / 2)
  {
    RetributionExact(c);
  }

  /** A spell's damage is 0 for every input exactly when its formula is unknown. */
  lemma ZeroExactlyWhenUnknown(s: SpellId)
    ensures (forall c, t :: Formula(s, c, t) == Unknown) <==> IsUnknownFormula(s)
  {
    if !IsUnknownFormula(s) {
      FormulaIsExact(s, SampleCaster, SampleTarget);
      KnownFormulaDealsDamage(s);
    }
  }

  /** A caster with every stat positive, and a target with positive vita and mana. */
  const SampleCaster := Character(1000, 1000, 10, 10, 10, 100, 100, "mage", "Below 99")
  const SampleTarget := Target(0, 1000, 1000, false)

  /** Every formula that is known deals damage to the sample target. */
  lemma KnownFormulaDealsDamage(s: SpellId)
    requires !IsUnknownFormula(s)
    ensures IntegerFormula(s, SampleCaster, SampleTarget) != Unknown
  {
  }

  /** Ignite always deals exactly 50. */
  lemma IgniteDealsFifty(c: Character, t: Target)
    ensures Formula(Ignite, c, t) == Scalar(50)
  {
  }

  /**
    Blizzard's constant grows with the tier; '99', 'Below 99' and any level
    string that names no tier share the lowest formula.
  */
  lemma BlizzardByTier(c: Character, t: Target)
    ensures var tier, mana := TierIndex(c.level), c.mana;
      Formula(Blizzard, c, t) == Scalar(
        if tier == 4 then 20099 + 19 * mana / 100
        else if tier == 3 then 16099 + 7 * mana / 40
        else if tier == 2 then 12099 + 3 * mana / 20
        else 8990 + mana / 10)
  {
    BlizzardFormulaExact(c, t);
    IntegerBlizzardByTier(c);
  }

  lemma IntegerBlizzardByTier(c: Character)
    ensures var tier, mana := TierIndex(c.level), c.mana;
      IntegerBlizzard(c) == Scalar(
        if tier == 4 then 20099 + 19 * mana / 100
        else if tier == 3 then 16099 + 7 * mana / 40
        else if tier == 2 then 12099 + 3 * mana / 20
        else 8990 + mana / 10)
  {
    LevelDispatch(c.level, 20099 + 19 * c.mana / 100, 16099 + 7 * c.mana / 40, 12099 + 3 * c.mana / 20, 8990 + c.mana / 10);
  }

  /** Branching on the three highest level strings is branching on the tier index. */
  lemma LevelDispatch(level: string, samSan: int, eeSan: int, ilSan: int, lower: int)
    ensures (if level == TierName(SamSan) then Scalar(samSan)
      else if level == TierName(EeSan) then Scalar(eeSan)
      else if level == TierName(IlSan) then Scalar(ilSan)
      else Scalar(lower))
      == Scalar(var tier := TierIndex(level);
        if tier == 4 then samSan else if tier == 3 then eeSan else if tier == 2 then ilSan else lower)
  {
    BlizzardTierDispatch(level);
  }

  /** Bomb barrage is the one formula that reads the target's stats. */
  lemma OnlyBombBarrageReadsTarget(s: SpellId)
    ensures (forall c, t1, t2 :: Formula(s, c, t1) == Formula(s, c, t2)) <==> s != BombBarrage
  {
    if s == BombBarrage {
      var c := Character(0, 0, 0, 0, 0, 0, 0, "rogue", "99");
      assert Formula(s, c, Target(0, 0, 0, false)) == Scalar(0);
      assert Formula(s, c, Target(0, 200, 0, false)) == Scalar(29);
    }
  }

  /** With non-negative stats no formula yields a negative number. */
  lemma NonNegativeDamage(s: SpellId, c: Character, t: Target)
    requires NonNegativeCharacter(c) && NonNegativeTarget(t)
    ensures NonNegative(Formula(s, c, t))
  {
    FormulaIsExact(s, c, t);
    IntegerFormulaNonNegative(s, c, t);
  }

  lemma IntegerFormulaNonNegative(s: SpellId, c: Character, t: Target)
    requires NonNegativeCharacter(c) && NonNegativeTarget(t)
    ensures NonNegative(IntegerFormula(s, c, t))
  {
    match s
    case Bladestorm => ProductNonNegative(250 * c.vita + 732 * c.mana, c.grace);
    case PoisonCloud => ProductNonNegative(c.mana, c.will);
    case Hellfire => DamScaledManaNonNegative(c, 1, 100, 25);
    case Volcano => DamScaledManaNonNegative(c, 13, 10, 80);
    case Inferno => DamScaledManaNonNegative(c, 3, 100, 100);
    case DoomsFire => DamScaledManaNonNegative(c, 2, 100, 25);
    case _ => LinearFormulaNonNegative(s, c, t);
  }

  lemma ProductNonNegative(a: int, b: int)
    requires a >= 0 && b >= 0
    ensures a * b >= 0
  {
  }

  lemma DamScaledManaNonNegative(c: Character, scale: int, offset: int, den: int)
    requires NonNegativeCharacter(c) && scale >= 0 && offset >= 0 && den > 0
    ensures IntegerDamScaledMana(c, scale, offset, den) >= 0
  {
    ProductNonNegative(scale * (offset + c.dam), c.mana);
  }

  lemma LinearFormulaNonNegative(s: SpellId, c: Character, t: Target)
    requires NonNegativeCharacter(c) && NonNegativeTarget(t)
    requires s !in {Bladestorm, PoisonCloud, Hellfire, Volcano, Inferno, DoomsFire}
    ensures NonNegative(IntegerFormula(s, c, t))
  {
  }

  /** Dragon's fist at 1000 vita deals 750. */
  lemma DragonsFistAtThousandVita(c: Character, t: Target)
    requires c.vita == 1000
    ensures Formula(DragonsFist, c, t) == Scalar(750)
  {
  }

  /** A key that some spell has finds that spell. */
  lemma LookupSpellFindsOwner(key: string)
    ensures forall s :: SpellKey(s) == key ==> LookupSpell(key) == Some(s)
  {
    forall s | SpellKey(s) == key
      ensures LookupSpell(key) == Some(s)
    {
      LookupSpellKey(s);
    }
  }

  /** The key under which a spell is stored in the table. */
  function SpellKey(s: SpellId): string {
    match s
    case DragonsFist => "dragons_fist"
    case DevastatingBlow => "devastating_blow"
    case Berserk => "berserk"
    case Whirlwind => "whirlwind"
    case BattleStorm => "battle_storm"
    case Assault => "assault"
    case DragonsConvulsion => "dragons_convulsion"
    case Siege => "siege"
    case DaggerToss => "dagger_toss"
    case DesperateAttack => "desperate_attack"
    case LethalStrike => "lethal_strike"
    case Bladestorm => "bladestorm"
    case FocusedBlow => "focused_blow"
    case BombBarrage => "bomb_barrage"
    case BladeDancer => "blade_dancer"
    case Ignite => "ignite"
    case Blizzard => "blizzard"
    case Phoenix => "phoenix"
    case PoisonCloud => "poison_cloud"
    case Hellfire => "hellfire"
    case PillarOfFlames => "pillar_of_flames"
    case Volcano => "volcano"
    case Inferno => "inferno"
    case DoomsFire => "dooms_fire"
    case FireBreath => "fire_breath"
    case Twister => "twister"
    case Retribution => "retribution"
    case CrashingWake => "crashing_wake"
    case Spark => "spark"
    case Tornado => "tornado"
    case HealingRain => "healing_rain"
    case ZenMode => "zen_mode"
  }

  /**
    `SPELLS[key]`: the spell stored under `key`, if any. Entries are grouped by
    the length of their key, and the two crowded lengths by the first letter,
    since a key can only equal keys that agree with it there; this is the same
    finite map, arranged so that distinctness of the keys is cheap to establish.
  */
  function LookupSpell(key: string): (r: Option<SpellId>)
    ensures r.Some? ==> SpellKey(r.value) == key
  {
    match |key|
    case 5 =>
      if key == SpellKey(Siege) then Some(Siege)
      else if key == SpellKey(Spark) then Some(Spark)
      else None
    case 6 => if key == SpellKey(Ignite) then Some(Ignite) else None
    case 7 =>
      (match key[0]
      case 'a' => if key == SpellKey(Assault) then Some(Assault) else None
      case 'b' => if key == SpellKey(Berserk) then Some(Berserk) else None
      case 'i' => if key == SpellKey(Inferno) then Some(Inferno) else None
      case 'p' => if key == SpellKey(Phoenix) then Some(Phoenix) else None
      case 't' =>
        if key == SpellKey(Twister) then Some(Twister)
        else if key == SpellKey(Tornado) then Some(Tornado)
        else None
      case 'v' => if key == SpellKey(Volcano) then Some(Volcano) else None
      case _ => None)
    case 8 =>
      if key == SpellKey(Blizzard) then Some(Blizzard)
      else if key == SpellKey(Hellfire) then Some(Hellfire)
      else if key == SpellKey(ZenMode) then Some(ZenMode)
      else None
    case 9 => if key == SpellKey(Whirlwind) then Some(Whirlwind) else None
    case 10 =>
      if key == SpellKey(Bladestorm) then Some(Bladestorm)
      else if key == SpellKey(DoomsFire) then Some(DoomsFire)
      else None
    case 11 =>
      if key == SpellKey(DaggerToss) then Some(DaggerToss)
      else if key == SpellKey(FireBreath) then Some(FireBreath)
      else if key == SpellKey(Retribution) then Some(Retribution)
      else None
    case 12 =>
      (match key[0]
      case 'b' =>
        if key == SpellKey(BattleStorm) then Some(BattleStorm)
        else if key == SpellKey(BombBarrage) then Some(BombBarrage)
        else if key == SpellKey(BladeDancer) then Some(BladeDancer)
        else None
      case 'd' => if key == SpellKey(DragonsFist) then Some(DragonsFist) else None
      case 'f' => if key == SpellKey(FocusedBlow) then Some(FocusedBlow) else None
      case 'h' => if key == SpellKey(HealingRain) then Some(HealingRain) else None
      case 'p' => if key == SpellKey(PoisonCloud) then Some(PoisonCloud) else None
      case _ => None)
    case 13 =>
      if key == SpellKey(LethalStrike) then Some(LethalStrike)
      else if key == SpellKey(CrashingWake) then Some(CrashingWake)
      else None
    case 16 =>
      if key == SpellKey(DevastatingBlow) then Some(DevastatingBlow)
      else if key == SpellKey(DesperateAttack) then Some(DesperateAttack)
      else if key == SpellKey(PillarOfFlames) then Some(PillarOfFlames)
      else None
    case 18 => if key == SpellKey(DragonsConvulsion) then Some(DragonsConvulsion) else None
    case _ => None
  }

  /** A key is missing from the table exactly when no spell carries it. */
  lemma LookupSpellMissing(key: string)
    ensures LookupSpell(key).None? <==> forall s :: SpellKey(s) != key
  {
    forall s | SpellKey(s) == key
      ensures LookupSpell(key).Some?
    {
      LookupSpellKey(s);
    }
  }

  /**
    Looking up a spell's own key finds that spell; hence keys are distinct.
    The proof is split into the lookup's key-length groups, each of at most
    seven spells, because one case analysis over all 32 keys at once
    is too costly for the solver.
  */
  lemma LookupSpellKey(s: SpellId)
    ensures LookupSpell(SpellKey(s)) == Some(s)
  {
    match s
    case Siege | Spark | Ignite | Blizzard | Hellfire | ZenMode =>
      LookupShortKey(s);
    case Berserk | Assault | Phoenix | Volcano | Inferno | Twister | Tornado =>
      LookupSevenCharKey(s);
    case Whirlwind | Bladestorm | DoomsFire | DaggerToss | FireBreath | Retribution =>
      LookupMediumKey(s);
    case DragonsFist | BattleStorm | FocusedBlow | BombBarrage | BladeDancer | PoisonCloud | HealingRain =>
      LookupTwelveCharKey(s);
    case LethalStrike | CrashingWake | DevastatingBlow | DesperateAttack | PillarOfFlames | DragonsConvulsion =>
      LookupLongKey(s);
  }

  /** Round trip for the keys of length 5, 6 and 8. */
  lemma LookupShortKey(s: SpellId)
    requires s in {Siege, Spark, Ignite, Blizzard, Hellfire, ZenMode}
    ensures LookupSpell(SpellKey(s)) == Some(s)
  {
    match s
    case Siege =>
    case Spark =>
    case Ignite =>
    case Blizzard =>
    case Hellfire =>
    case ZenMode =>
    case _ =>
  }

  /** Round trip for the keys of length 7. */
  lemma LookupSevenCharKey(s: SpellId)
    requires s in {Berserk, Assault, Phoenix, Volcano, Inferno, Twister, Tornado}
    ensures LookupSpell(SpellKey(s)) == Some(s)
  {
    match s
    case Berserk =>
    case Assault =>
    case Phoenix =>
    case Volcano =>
    case Inferno =>
    case Twister =>
    case Tornado =>
    case _ =>
  }

  /** Round trip for the keys of length 9 to 11. */
  lemma LookupMediumKey(s: SpellId)
    requires s in {Whirlwind, Bladestorm, DoomsFire, DaggerToss, FireBreath, Retribution}
    ensures LookupSpell(SpellKey(s)) == Some(s)
  {
    match s
    case Whirlwind =>
    case Bladestorm =>
    case DoomsFire =>
    case DaggerToss =>
    case FireBreath =>
    case Retribution =>
    case _ =>
  }

  /** Round trip for the keys of length 12. */
  lemma LookupTwelveCharKey(s: SpellId)
    requires s in {DragonsFist, BattleStorm, FocusedBlow, BombBarrage, BladeDancer, PoisonCloud, HealingRain}
    ensures LookupSpell(SpellKey(s)) == Some(s)
  {
    match s
    case DragonsFist =>
    case BattleStorm =>
    case FocusedBlow =>
    case BombBarrage =>
    case BladeDancer =>
    case PoisonCloud =>
    case HealingRain =>
    case _ =>
  }

  /** Round trip for the keys of length 13 to 18. */
  lemma LookupLongKey(s: SpellId)
    requires s in {LethalStrike, CrashingWake, DevastatingBlow, DesperateAttack, PillarOfFlames, DragonsConvulsion}
    ensures LookupSpell(SpellKey(s)) == Some(s)
  {
    match s
    case LethalStrike =>
    case CrashingWake =>
    case DevastatingBlow =>
    case DesperateAttack =>
    case PillarOfFlames =>
    case DragonsConvulsion =>
    case _ =>
  }
}

=== FILE: stats.dfy ===
/**
  The raw records the calculator works on: the character's stats (with its
  class and level tier as strings) and the target's stats. Stats are integers
  as read from the form; nothing here bounds or clamps them.
*/
module Stats {

  datatype Character = Character(
    vita: int,
    mana: int,
    dam: int,
    hit: int,
    might: int,
    will: int,
    grace: int,
    className: string,
    level: string)

  datatype Target = Target(ac: int, vita: int, mana: int, isBoss: bool)

  /** The character's numeric stats are all at least zero. */
  predicate NonNegativeCharacter(c: Character) {
    c.vita >= 0 && c.mana >= 0 && c.dam >= 0 && c.hit >= 0
    && c.might >= 0 && c.will >= 0 && c.grace >= 0
  }

  /** The target's vita and mana are at least zero (AC is signed). */
  predicate NonNegativeTarget(t: Target) {
    t.vita >= 0 && t.mana >= 0
  }
}

=== FILE: tiers.dfy ===
/**
  The five level tiers a character passes through, in order of obtainment.
  A character's level is held as the tier's display string; `TierIndex` is
  the position of that string in `LevelTiers`, or -1 for a string that names
  no tier (the behaviour of `indexOf`).
*/
module Tiers {

  datatype Tier = Below99 | NinetyNine | IlSan | EeSan | SamSan

  function TierName(t: Tier): string {
    match t
    case Below99 => "Below 99"
    case NinetyNine => "99"
    case IlSan => "Il San"
    case EeSan => "Ee San"
    case SamSan => "Sam San"
  }

  /** The tier names in order of obtainment. */
  const LevelTiers: seq<string> := ["Below 99", "99", "Il San", "Ee San", "Sam San"]

  /** The tier at position `i` of `LevelTiers`. */
  function TierAt(i: nat): (t: Tier)
    requires i < |LevelTiers|
    ensures TierName(t) == LevelTiers[i]
  {
    [Below99, NinetyNine, IlSan, EeSan, SamSan][i]
  }

  /** Position of the first occurrence of `x` in `xs`, or -1 when `x` does not occur. */
  function IndexOf(xs: seq<string>, x: string): (i: int)
    ensures -1 <= i < |xs|
    ensures i == -1 <==> x !in xs
    ensures 0 <= i ==> xs[i] == x && forall j :: 0 <= j < i ==> xs[j] != x
  {
    if |xs| == 0 then -1
    else if xs[0] == x then 0
    else
      var k := IndexOf(xs[1..], x);
      if k == -1 then -1 else k + 1
  }

  /** The index of a level string in `LevelTiers`, -1 for an unrecognised level. */
  function TierIndex(level: string): (i: int)
    ensures -1 <= i < |LevelTiers|
    ensures i == -1 <==> level !in LevelTiers
    ensures 0 <= i ==> LevelTiers[i] == level
  {
    IndexOf(LevelTiers, level)
  }

  /** The five tier names are pairwise distinct. */
  lemma LevelTiersDistinct()
    ensures |LevelTiers| == 5
    ensures forall i, j :: 0 <= i < j < |LevelTiers| ==> LevelTiers[i] != LevelTiers[j]
  {
  }

  /** `TierIndex` inverts indexing into `LevelTiers`, so distinct tiers get distinct indices. */
  lemma TierIndexOfName(i: nat)
    requires i < |LevelTiers|
    ensures TierIndex(LevelTiers[i]) == i
  {
    LevelTiersDistinct();
  }

  /** Every tier's name is in `LevelTiers`, at the position `TierAt` maps back to that tier. */
  lemma TierNameIndexed(t: Tier)
    ensures 0 <= TierIndex(TierName(t))
    ensures TierAt(TierIndex(TierName(t))) == t
  {
    LevelTiersDistinct();
  }
}

=== FILE: wrappers.dfy ===
/** Optional values, used for lookups in the string-keyed tables of the calculator. */
module Wrappers {

  datatype Option<+T> = None | Some(value: T)
}
